=== FILE: README.md ===
# Key-value store with a file transaction log

A Dafny model of the in-memory key-value store and the write-ahead file
transaction log that rebuilds it at startup, and proofs of what the pair
promises: store laws, the line format, the order and numbering of written
events, fail-stop replay, and "replaying the log equals applying the
operations directly".

The model is functional. The store is a `map<string, string>` value. The log
file is a string that the writer appends to, and that bufio's line scanner
cuts into lines. The writer goroutine is a function over the queue of
pending events, and the reader goroutine is a function from lines to the
replayed events and at most one error. `initializeTransactionLog` is a fold
of the replayed events into the store.

Modules:

- `Wrappers`: `Option` and `Result`.
- `Core` (core.go): `Put`, `Get`, `Delete` and `NoSuchKey`.
- `Fmt`: the parts of Go's fmt package the log format depends on.
  - `%d` printing (`Decimal`).
  - The `Sscanf` verbs `%d` and `%s`, with fmt's white-space table and its
    newline rules (`ScanUint`, `ScanString`).
  - How a tab in the format matches the input (`MatchSpace`).
- `Lines`: bufio's `ScanLines`. Every newline ends a line, one carriage
  return before it is dropped, and a final unterminated line counts.
- `Transact` (transact.go):
  - event kinds and `Event`;
  - `WritePut`/`WriteDelete`;
  - the writer loop of `Run`, with a 64-bit counter that wraps;
  - the line parser as written (`ParseLine`, which is `Sscanf`);
  - a corrected parser (`ParseFields`);
  - the reader loop of `ReadEvents` (`ReadLines`).
- `Service` (service.go):
  - the replay/apply loop of `initializeTransactionLog` (`ApplyEvents`);
  - startup as a whole (`InitializeTransactionLog`), including the switch
    to live mode;
  - a reference client (`Op`, `ApplyOps`, `Enqueue`) that applies each
    mutation to a store and enqueues its event.

The reader is parameterised by its line parser. `ParseLine` is the parser
the source uses; `ParseFields` is the corrected one. The end-to-end theorems
are proved for both, on the inputs where each is right (see Findings).

The HTTP handlers in service.go call `Put` and `Delete` (service.go:33,
service.go:65) but never `WritePut` or `WriteDelete`. So in this version of
the program nothing reaches the log at run time. The reference client is
written the way a logging request layer would use the `TransactionLogger`
interface (transact.go:24-32): apply the mutation, then enqueue its event
with `WritePut` or `WriteDelete`. The logging theorems are about what the logger
guarantees to such a client.

Also noted, not modelled: the reader's parse error is built with
`fmt.Errorf("input parse error: %w, err")` (transact.go:105). Its argument
sits inside the format string, so the error carries no cause. `InputParse`
accordingly has no payload.

## Model

| member | source | states |
|---|---|---|
| Core.Put | core.go:6-10 | Put never fails; afterwards the key maps to the new value and every other key keeps its entry |
| Core.Get | core.go:12-20 | Get succeeds exactly when the key is present and then returns its value; an absent key gives "" and NoSuchKey |
| Core.Delete | core.go:22-26 | Delete never fails; afterwards the key is absent and every other key keeps its entry |
| Core.GetAfterPut | core.go:6-19 | after Put(k, v), Get(k) returns v with no error |
| Core.PutOverwrites | core.go:7 | a second Put of a key replaces the first entirely |
| Core.GetOtherAfterPut | core.go:7 | Put(k, v) does not change what Get returns for any other key |
| Core.GetAfterDelete | core.go:22-23 | after Delete(k), Get(k) returns "" and NoSuchKey |
| Core.GetOtherAfterDelete | core.go:23 | Delete(k) does not change what Get returns for any other key |
| Core.DeleteAbsent | core.go:23 | deleting an absent key leaves the store unchanged |
| Core.DeleteIdempotent | core.go:23 | deleting a key twice is the same as deleting it once |
| Fmt.DecimalRoundTrip | transact.go:74-77 | the numeral `%d` prints for a number denotes that number |
| Fmt.ScanUint | transact.go:102-103 | `%d` into an unsigned field yields a value below the field's bound and stops where the digits end |
| Fmt.ScanString | transact.go:102-103 | `%s` yields a non-empty word without white space and stops at white space or the end of the input; on empty input it fails |
| Fmt.ScanUintDecimal | transact.go:102-103 | `%d` reads back exactly the numeral `%d` printed, for any value that fits the field |
| Fmt.ScanStringToken | transact.go:102-103 | `%s` reads back a word followed by white space or the end of input |
| Fmt.MatchTab | transact.go:102 | a tab in the input matches the format's tab together with the blanks after it |
| Fmt.MatchBlank | transact.go:102 | a tab in the format matches any blank in the input, not only a tab, together with the blanks after it |
| Fmt.MatchFinalTab | transact.go:102 | a tab followed only by blanks up to the end of the input is matched with them, after which `%s` meets the end of input |
| Lines.SplitLines | transact.go:99-100 | the scanner yields at most one line per character, and no line contains a newline |
| Lines.SplitJoin | transact.go:99-100 | lines written one after another, each ended by a newline, are read back as exactly those lines |
| Transact.WritePut | transact.go:41-43 | WritePut enqueues one Put event (kind 2) at the end of the queue, with sequence 0, the key and the value |
| Transact.WriteDelete | transact.go:45-47 | WriteDelete enqueues one Delete event (kind 1) at the end of the queue, with sequence 0, the key and an empty value |
| Transact.ParseLine | transact.go:102-107 | a line that parses has a key and a value that are non-empty and free of white space |
| Transact.ParseLineRoundTrip | transact.go:102-103 | a line the writer printed for an event with word key and value parses back to that event with the printed sequence number |
| Transact.EmptyValueRejected | transact.go:102-107 | for a key without white space, the line of an event whose value is empty or only blanks fails to parse; this covers every Delete of such a key |
| Transact.DeleteLineRejected | transact.go:46 | the line printed for an event WriteDelete enqueued, for a key without white space, fails to parse |
| Transact.EmptyPutLineRejected | transact.go:102-107 | the line printed for a Put of an empty value, for a key without white space, fails to parse |
| Transact.SpacedKeyDeleteMisread | transact.go:102-103 | the line printed for a Delete of two words with a blank between them parses without error as a Delete of the first word, with the second word as its value |
| Transact.SpacedValueTruncated | transact.go:102-103 | a value with white space in it parses without error, but only its first word comes back |
| Transact.ParseFields | transact.go:102-103 | corrected parser: a line without a tab is rejected, and a parsed key contains no tab |
| Transact.ParseFieldsRoundTrip | transact.go:102-103 | corrected parser: every line the writer prints, for any key without a tab, parses back to the event, empty values included |
| Transact.RecordIsLine | transact.go:76 | a printed record is a single line the scanner returns unchanged when the key has no tab or newline and the value has no newline and does not end in a carriage return |
| Transact.NewFileTransactionLogger | transact.go:53-60 | opening succeeds exactly when the file can be opened; the new logger holds the file and has used no sequence number; failure is OpenFailure |
| Transact.Next | transact.go:72 | the counter increment is `lastSequence + 1` modulo 2^64 |
| Transact.AdvanceNoWrap | transact.go:72 | below 2^64, k increments add k |
| Transact.Run | transact.go:70-83 | the writer appends the events before the first failed write, in enqueue order, numbering them lastSequence+1, +2, ...; it reports one WriteFailure exactly when a write fails; the counter also counts the failed write |
| Transact.RunIgnoresSequence | transact.go:72-77 | the file the writer produces does not depend on the sequence numbers the enqueued events carry |
| Transact.RunWritesRecords | transact.go:70-77 | with no write error, the writer appends one `seq TAB kind TAB key TAB value NEWLINE` line per event, in enqueue order, the i-th numbered lastSequence+1+i, and ends with the counter at the last number |
| Transact.RunStopsAtWriteError | transact.go:79-82 | on the first failed write the writer reports WriteFailure once and has written only the earlier events |
| Transact.LogIsJoin | transact.go:74-77 | the written text is the numbered records, each ended by a newline |
| Transact.LogAppend | transact.go:74-77 | writing two batches appends the second batch's lines, numbered on from the first |
| Transact.LogLines | transact.go:99-100 | the scanner cuts the writer's output back into exactly the records it printed |
| Transact.AscendingSorted | transact.go:111-116 | events that pass the reader's sequence check have numbers above the starting counter and strictly increasing, so none is replayed twice |
| Transact.ReadLines | transact.go:99-119 | the reader loop never emits more events than there are lines (its full behaviour is stated by ReadLinesReplays) |
| Transact.ReadLinesReplays | transact.go:99-119 | the reader loop (ReadLines) emits the parses of the first lines in order, numbers strictly increasing; the counter ends at the last emitted number; there is no error exactly when every line was emitted; otherwise the error is InputParse exactly when the next line does not parse, and OutOfSequence exactly when it parses to a number not above the counter |
| Transact.ReadEvents | transact.go:99-122 | the events are the parses of the first lines of the file, in order, numbered strictly increasing above the logger's counter; a read error is reported only after every delivered line was replayed; no error exactly when all lines replayed and no read error; the counter ends at the last replayed number; when a line was not replayed, the error is InputParse exactly when it does not parse and OutOfSequence exactly when its number is not above the counter |
| Transact.ReadValidLines | transact.go:111-118 | lines that parse to the next event above the counter are all replayed, and the counter ends at the last |
| Transact.ReplayStopsAtBadLine | transact.go:102-114 | at the first line that does not parse, or whose number is not above the counter, replay emits exactly the earlier events and then InputParse or OutOfSequence |
| Transact.ReplayStopsAtEmptyValue | transact.go:102-107 | parser as written: when every earlier record has a word key and value and the next has an empty value and a key without white space, exactly the earlier records are replayed and then InputParse is reported |
| Transact.ReplayWritten | transact.go:116 | what the writer appends from counter n, read back from n, is the queue again numbered n+1, n+2, ..., with no error, the counter at the last |
| Transact.ReplayWrittenTokens | transact.go:102-118 | the write/read round trip holds with the parser as written for events whose key and value are words |
| Transact.ReplayWrittenFields | transact.go:102-118 | the write/read round trip holds with the corrected parser for every storable event, Deletes included |
| Service.ApplyEvent | service.go:93-98 | a Delete event deletes its key, a Put event stores its value, any other kind leaves the store unchanged; no error |
| Service.ApplyEvents | service.go:89-100 | the replay fold never stops early on a store error, since Put and Delete never fail |
| Service.ApplyEventsSnoc | service.go:89-98 | the fold applies events in stream order: one more event is applied to the store the earlier ones built |
| Service.ApplyEventsAppend | service.go:89-100 | replaying two stretches of events is replaying the first, then the second on its result |
| Service.UntouchedKeyKept | service.go:93-98 | a key no Put or Delete event names keeps its entry through the replay |
| Service.LastWriteWins | service.go:89-98 | the last event that touches a key decides it: present with that value after a Put, absent after a Delete |
| Service.Enqueue | transact.go:41-47 | the client's operations enqueue one event each, in order, behind the pending ones |
| Service.ReplayMatchesOps | service.go:89-98 | replaying events with the operations' payloads, whatever their numbers, gives the store the operations give directly |
| Service.InitializeTransactionLog | service.go:76-105 | the logger goes live exactly when the file opens. On open failure the store is untouched and the error is returned. Otherwise the store is the replayed events applied in order, the counter is the last replayed number, and there is no error exactly when every line replayed without a read error. The error is the reader's, unchanged: ReadFailure exactly when every line replayed but the read failed, InputParse exactly when the next line does not parse, OutOfSequence exactly when its number is not above the counter; no other error occurs |
| Service.WriteOpsByRun | transact.go:70-77 | the writer, fed the client's events, appends their records and advances the counter by one per operation |
| Service.StartupOnCleanReplay | service.go:89-104 | when every line of the file replays, startup yields the operations applied directly to the empty store, the counter at the last number, live mode, no error |
| Service.ReplayEqualsDirect | service.go:89-100 | parser as written: Puts of word keys and values, logged from an empty file, are recovered exactly on the next startup |
| Service.ReplayEqualsDirectFields | service.go:89-100 | corrected parser: any storable Puts and Deletes, logged from an empty file, are recovered exactly on the next startup |
| Service.RestartLog | transact.go:72 | a session that writes from the recovered counter appends exactly what one session writing both batches would have |
| Service.RecoveryAcrossRestarts | service.go:84-104 | corrected parser: after a restart and more logging from the recovered counter, the next startup recovers both sessions' operations in order |
| Service.RecoveryAcrossRestartsTokens | service.go:84-104 | parser as written: when both sessions log only Puts of word keys and values, after a restart and more logging from the recovered counter, the next startup recovers both sessions' operations in order |
| Service.WrapStopsNextStartup | transact.go:72-116 | a log whose line is numbered 2^64-1 replays cleanly and leaves the counter there; the next write is numbered 0, and the startup after that reports OutOfSequence |
| Service.DeleteAbortsStartup | service.go:89-104 | parser as written: startup on a log of word Puts and then a Delete of a key without white space recovers only the Puts before the Delete, stops the counter there and returns InputParse |

## Left out

- pg_logger.go: the PostgreSQL logger is a wrapper over `database/sql` with no sequence check of its own.
- Goroutines, channels, the queue depth of 16, back-pressure and `Err()` (transact.go:49-51): the writer consumes an explicit queue and returns its error instead of sending it.
- The `select` at service.go:90-92 is modelled deterministically: all events, then the reader's error. In Go, after any reader error (InputParse, OutOfSequence or ReadFailure) the reader puts the error into the one-slot error buffer and its deferred closes close both channels (transact.go:96-97, 105-122), so the closed event channel and the buffered error can both be ready. If the closed channel is taken first, startup returns nil and the error is lost. The model always takes the error.
- File I/O: the file is a string. The open flags, permissions and `os.File` are not modelled. An open failure is `None` contents. A failing `Fprintf` is the index of the first failing write, and it appends nothing (no partial writes). A scanner read error is a flag raised after the delivered lines; an error in mid-file is the same as passing the shorter file.
- bufio's 64 KiB token limit: a longer line makes the scanner fail; that is covered only through the read-error flag.
- Bytes and UTF-8: strings are sequences of characters. Invalid UTF-8 and the byte/rune distinction are not modelled.
- HTTP handlers, the router and `main`: request glue. Note that the handlers do not log, and that `main` (service.go:107-120) never calls `initializeTransactionLog`, so in this version no replay happens at run time either.
- Locking of the global map: the model is sequential.
- Error message texts and `%w` wrapping: errors are the enumerated kinds only.
- Transact.ParseLineRoundTrip: stated only for word keys and values, because `%s` cannot read back anything else (see Findings).
- Service.ReplayEqualsDirect: stated only for Puts of words, because the parser as written rejects the Delete line of every key without white space, misreads a Delete of a key with a blank in it, and truncates values with blanks (see Findings).
- Service.ReplayEqualsDirectFields: stated for keys without tab or newline and values without newline or a trailing carriage return, because the tab-separated line format cannot carry those.
- Transact.EmptyValueRejected: stated for keys without white space. With a blank in the key the line can parse as another event (see Findings).
- Transact.DeleteLineRejected: stated for keys without white space, for the same reason.
- Transact.ReplayStopsAtEmptyValue: stated for earlier records of word keys and values and an empty-value record whose key has no white space; any other earlier record may already stop or change replay.
- Service.DeleteAbortsStartup: stated for word Puts and a Delete key without white space; a Delete key with a blank instead replays as a Delete of another key (see Findings).
- Transact.RunWritesRecords: stated only while the counter does not wrap (`Run` itself models the wrap). The same no-wrap condition, that the starting counter plus the events written stays below 2^64, is assumed by RunStopsAtWriteError, LogIsJoin, LogAppend, LogLines, ReplayWritten, ReplayWrittenTokens, ReplayWrittenFields, Service.WriteOpsByRun and every Service end-to-end lemma. The wrap does not need 2^64 writes: a replayed line numbered 2^64-1 makes the next write 0, after which the next startup stops with OutOfSequence (Service.WrapStopsNextStartup).
- Service.RecoveryAcrossRestarts: stated for the corrected parser and storable operations. With the parser as written, the first logged Delete of a key without white space already stops recovery (Service.DeleteAbortsStartup). The as-written case is covered for word Puts by Service.RecoveryAcrossRestartsTokens.
- Service.InitializeTransactionLog: the `StoreError` path is kept but unreachable, since Put and Delete never fail.

## Findings

| source | as written | input that shows it | evidently intended | confidence | as-written member | corrected member |
|---|---|---|---|---|---|---|
| transact.go:102-103 | `%s` needs a non-empty word, but WriteDelete logs an empty value (transact.go:46). The Delete line of every key without white space is rejected, so startup stops with a parse error at the first such logged Delete and loses everything after it. A Put with an empty value, which putHandler accepts (service.go:23-33), is rejected the same way (Transact.EmptyValueRejected, Transact.EmptyPutLineRejected) | the log `1\t2\tk\tv\n2\t1\tk\t\n` | Deletes replay like Puts | not executed | Service.DeleteAbortsStartup | Service.ReplayEqualsDirectFields |
| transact.go:102-103 | `%s` stops at white space, so a value with a blank in it is truncated on replay without any error | Put("k", "a b") logged as `1\t2\tk\ta b\n` replays as Put("k", "a") | the value comes back as written | not executed | Transact.SpacedValueTruncated | Transact.ParseFieldsRoundTrip |
| transact.go:102-103 | `%s` stops at white space, and the format's tab matches any blank, so a Delete of a key with a blank in it parses without error as a Delete of its first word | Delete("a b") logged as `1\t1\ta b\t\n` replays as a Delete of "a" with value "b" | the Delete of "a b" comes back as written | not executed | Transact.EmptyPutLineRejected | transact.go:102-107 | the line printed for a Put of an empty value, for a key without white space, fails to parse |
| Transact.SpacedKeyDeleteMisread | Transact.ParseFieldsRoundTrip |

=== FILE: core.dfy ===
/** The in-memory key-value store: a map from key to value with Put, Get
    and Delete. Go keeps it in a package-level map; here the store is a
    value passed in and returned. */
module Core {
  import opened Wrappers

  type Store = map<string, string>

  /** The only error the store reports: a Get of an absent key. */
  datatype KvError = NoSuchKey

  /** What a mutation returns: the new store and Go's `error` result. */
  datatype Update = Update(store: Store, err: Option<KvError>)

  /** What Get returns: Go's `(string, error)` pair. */
  datatype Lookup = Lookup(value: string, err: Option<KvError>)

  /** The two stores hold the same entry for `k` (or both lack it). */
  predicate Agree(a: Store, b: Store, k: string) {
    (k in a <==> k in b) && (k in a ==> a[k] == b[k])
  }

  /** The store that starts every process: an empty map. */
  const Empty: Store := map[]

  /** Insert or overwrite; never fails. */
  function Put(s: Store, key: string, value: string): (r: Update)
    ensures r.err == None
    ensures r.store.Keys == s.Keys + {key}
    ensures r.store[key] == value
    ensures forall k {:trigger Agree(s, r.store, k)} :: k != key ==> Agree(s, r.store, k)
  {
    Update(s[key := value], None)
  }

  /** Look a key up; an absent key yields the empty string and NoSuchKey. */
  function Get(s: Store, key: string): (r: Lookup)
    ensures r.err == None <==> key in s
    ensures key in s ==> r.value == s[key]
    ensures key !in s ==> r.value == "" && r.err == Some(NoSuchKey)
  {
    if key in s then Lookup(s[key], None) else Lookup("", Some(NoSuchKey))
  }

  /** Remove a key if present; never fails. */
  function Delete(s: Store, key: string): (r: Update)
    ensures r.err == None
    ensures r.store.Keys == s.Keys - {key}
    ensures forall k {:trigger Agree(s, r.store, k)} :: k != key ==> Agree(s, r.store, k)
  {
    Update(s - {key}, None)
  }

  lemma GetAfterPut(s: Store, key: string, value: string)
    ensures Get(Put(s, key, value).store, key) == Lookup(value, None)
  {
  }

  /** A second Put of the same key replaces the first entirely. */
  lemma PutOverwrites(s: Store, key: string, v1: string, v2: string)
    ensures Put(Put(s, key, v1).store, key, v2).store == Put(s, key, v2).store
  {
  }

  /** Writes to one key are invisible through every other key. */
  lemma GetOtherAfterPut(s: Store, key: string, value: string, other: string)
    requires other != key
    ensures Get(Put(s, key, value).store, other) == Get(s, other)
  {
  }

  lemma GetAfterDelete(s: Store, key: string)
    ensures Get(Delete(s, key).store, key) == Lookup("", Some(NoSuchKey))
  {
  }

  lemma GetOtherAfterDelete(s: Store, key: string, other: string)
    requires other != key
    ensures Get(Delete(s, key).store, other) == Get(s, other)
  {
  }

  /** Deleting an absent key changes nothing, so Delete is idempotent. */
  lemma DeleteAbsent(s: Store, key: string)
    requires key !in s
    ensures Delete(s, key).store == s
  {
  }

  lemma DeleteIdempotent(s: Store, key: string)
    ensures Delete(Delete(s, key).store, key).store == Delete(s, key).store
  {
  }
}

=== FILE: fmt.dfy ===
/** The parts of Go's fmt package that the file logger depends on, at the
    level of characters: `%d` printing of an unsigned integer, and the
    `Sscanf` pieces `%d`, `%s` and a tab in the format string. Scanning
    works on the remaining input and returns what is left after it. */
module Fmt {
  import opened Wrappers

  const Uint8Bound: nat := 0x100
  const Uint64Bound: nat := 0x1_0000_0000_0000_0000

  /** White space as fmt's scanner classifies it (its `isSpace` table). */
  predicate IsSpace(c: char) {
    var r := c as int;
    || (0x09 <= r <= 0x0d)
    || r == 0x20
    || r == 0x85
    || r == 0xa0
    || r == 0x1680
    || (0x2000 <= r <= 0x200a)
    || r == 0x2028
    || r == 0x2029
    || r == 0x202f
    || r == 0x205f
    || r == 0x3000
  }

  predicate IsDigit(c: char) {
    '0' <= c <= '9'
  }

  predicate AllDigits(s: string) {
    forall i :: 0 <= i < |s| ==> IsDigit(s[i])
  }

  predicate NoSpace(s: string) {
    forall i :: 0 <= i < |s| ==> !IsSpace(s[i])
  }

  /** What `%s` can read back unchanged: a non-empty word without white space. */
  predicate IsToken(s: string) {
    |s| > 0 && NoSpace(s)
  }

  function DigitChar(d: nat): (c: char)
    requires d < 10
    ensures IsDigit(c) && c as int - '0' as int == d
  {
    ('0' as int + d) as char
  }

  /** `%d` of an unsigned integer: its decimal numeral without leading zeros. */
  function Decimal(n: nat): (s: string)
    ensures |s| > 0 && AllDigits(s)
    decreases n
  {
    if n < 10 then [DigitChar(n)] else Decimal(n / 10) + [DigitChar(n % 10)]
  }

  /** The number a string of decimal digits denotes (leading zeros allowed). */
  function DigitsValue(s: string): nat
    requires AllDigits(s)
  {
    if s == [] then 0 else DigitsValue(s[..|s| - 1]) * 10 + (s[|s| - 1] as int - '0' as int)
  }

  lemma {:induction false} DecimalRoundTrip(n: nat)
    ensures DigitsValue(Decimal(n)) == n
  {
    if n >= 10 {
      var s := Decimal(n);
      assert s[..|s| - 1] == Decimal(n / 10);
      DecimalRoundTrip(n / 10);
    }
  }

  /** A scanned value and the input after it. */
  datatype Scanned<T> = Scanned(value: T, rest: string)

  datatype ScanError =
    | UnexpectedNewline  // a newline where a verb skips white space
    | UnexpectedEOF      // a verb met the end of the input
    | ExpectedInteger    // `%d` found no digit
    | IntegerOverflow    // the number does not fit the target's width
    | InputMismatch      // a tab in the format met a newline or a non-space
    | MissingField       // a tab-separated field is missing

  /** SkipSpace as Sscanf runs it: drop leading white space; a newline is an error. */
  function SkipSpace(t: string): (r: Result<string, ScanError>)
    ensures r.Success? ==> |r.value| <= |t| && (r.value == [] || !IsSpace(r.value[0]))
    ensures t != [] && !IsSpace(t[0]) ==> r == Success(t)
  {
    if t == [] then Success(t)
    else if t[0] == '\n' then Failure(UnexpectedNewline)
    else if IsSpace(t[0]) then SkipSpace(t[1..])
    else Success(t)
  }

  /** Drop leading white space other than newline. */
  function SkipBlanks(t: string): (r: string)
    ensures |r| <= |t|
    ensures r == [] || !IsSpace(r[0]) || r[0] == '\n'
  {
    if t != [] && IsSpace(t[0]) && t[0] != '\n' then SkipBlanks(t[1..]) else t
  }

  /** A tab in the format: at the end of the input it matches nothing;
      otherwise the input must continue with at least one blank, and the
      whole run of blanks is consumed. A newline or any other character
      there is a mismatch. */
  function MatchSpace(t: string): (r: Result<string, ScanError>)
    ensures r.Success? ==> |r.value| <= |t|
    ensures t != [] && !IsSpace(t[0]) ==> r.Failure?
    ensures t != [] && IsSpace(t[0]) && t[0] != '\n' ==> r.Success? && |r.value| < |t|
  {
    if t == [] then Success(t)
    else if t[0] == '\n' || !IsSpace(t[0]) then Failure(InputMismatch)
    else Success(SkipBlanks(t))
  }

  /** Length of the run of decimal digits that starts the input. */
  function DigitRun(u: string): (k: nat)
    ensures k <= |u| && AllDigits(u[..k])
    ensures k < |u| ==> !IsDigit(u[k])
  {
    if u == [] || !IsDigit(u[0]) then 0 else 1 + DigitRun(u[1..])
  }

  /** Length of the run of non-space characters that starts the input. */
  function TokenRun(u: string): (k: nat)
    ensures k <= |u| && NoSpace(u[..k])
    ensures k < |u| ==> IsSpace(u[k])
  {
    if u == [] || IsSpace(u[0]) then 0 else 1 + TokenRun(u[1..])
  }

  /** `%d` into an unsigned integer of `bound` values (2^8 or 2^64): white
      space first, then one or more digits, no sign; a value that does not
      fit is an error. */
  function ScanUint(t: string, bound: nat): (r: Result<Scanned<nat>, ScanError>)
    ensures r.Success? ==> r.value.value < bound && |r.value.rest| < |t|
    ensures r.Success? ==> r.value.rest == [] || !IsDigit(r.value.rest[0])
  {
    var u :- SkipSpace(t);
    if u == [] then Failure(UnexpectedEOF)
    else
      var k := DigitRun(u);
      if k == 0 then Failure(ExpectedInteger)
      else
        var n := DigitsValue(u[..k]);
        if n >= bound then Failure(IntegerOverflow) else Success(Scanned(n, u[k..]))
  }

  /** `%s` into a string: white space first, then the next word. */
  function ScanString(t: string): (r: Result<Scanned<string>, ScanError>)
    ensures r.Success? ==> IsToken(r.value.value) && |r.value.rest| < |t|
    ensures r.Success? ==> r.value.rest == [] || IsSpace(r.value.rest[0])
    ensures t == [] ==> r == Failure(UnexpectedEOF)
  {
    var u :- SkipSpace(t);
    if u == [] then Failure(UnexpectedEOF)
    else
      var k := TokenRun(u);
      Success(Scanned(u[..k], u[k..]))
  }

  lemma {:induction false} DigitRunPrefix(d: string, t: string)
    requires AllDigits(d)
    requires t == [] || !IsDigit(t[0])
    ensures DigitRun(d + t) == |d|
  {
    if d != [] {
      assert (d + t)[1..] == d[1..] + t;
      DigitRunPrefix(d[1..], t);
    } else {
      assert d + t == t;
    }
  }

  lemma {:induction false} TokenRunPrefix(w: string, t: string)
    requires NoSpace(w)
    requires t == [] || IsSpace(t[0])
    ensures TokenRun(w + t) == |w|
  {
    if w != [] {
      assert (w + t)[1..] == w[1..] + t;
      TokenRunPrefix(w[1..], t);
    } else {
      assert w + t == t;
    }
  }

  /** `%d` reads back what `%d` printed, and stops where the numeral ends. */
  lemma ScanUintDecimal(n: nat, t: string, bound: nat)
    requires n < bound
    requires t == [] || !IsDigit(t[0])
    ensures ScanUint(Decimal(n) + t, bound) == Success(Scanned(n, t))
  {
    var d := Decimal(n);
    var u := d + t;
    assert u[0] == d[0];
    DigitRunPrefix(d, t);
    assert u[..|d|] == d;
    assert u[|d|..] == t;
    DecimalRoundTrip(n);
  }

  /** `%s` reads back a word followed by white space or the end of input. */
  lemma ScanStringToken(w: string, t: string)
    requires IsToken(w)
    requires t == [] || IsSpace(t[0])
    ensures ScanString(w + t) == Success(Scanned(w, t))
  {
    var u := w + t;
    assert u[0] == w[0];
    TokenRunPrefix(w, t);
    assert u[..|w|] == w;
    assert u[|w|..] == t;
  }

  /** A tab in the input matches a tab in the format, together with the
      blanks after it. */
  lemma MatchTab(t: string)
    ensures MatchSpace("\t" + t) == Success(SkipBlanks(t))
  {
    MatchBlank('\t', t);
  }

  /** The same holds for any blank, so a tab in the format also matches a
      space in the input. */
  lemma MatchBlank(c: char, t: string)
    requires IsSpace(c) && c != '\n'
    ensures MatchSpace([c] + t) == Success(SkipBlanks(t))
  {
    var u := [c] + t;
    assert u[0] == c;
    assert u[1..] == t;
  }

  /** Blank skipping stops at once at a character that is not white space. */
  lemma SkipBlanksWord(t: string)
    requires t != [] && !IsSpace(t[0])
    ensures SkipBlanks(t) == t
  {
  }

  /** A tab followed by nothing but blanks is consumed with them, to the
      end of the input; after it `%s` has nothing left to read. */
  lemma MatchFinalTab(t: string)
    requires SkipBlanks(t) == []
    ensures SkipBlanks("\t" + t) == []
    ensures MatchSpace("\t" + t) == Success([])
    ensures ScanString([]) == Failure(UnexpectedEOF)
  {
    MatchTab(t);
    assert ("\t" + t)[1..] == t;
  }
}

=== FILE: lines.dfy ===
/** A log file as text, and how bufio's line scanner cuts it into lines:
    every newline ends a line, one carriage return before it is dropped,
    and a non-empty tail without a newline is a last line of its own. */
module Lines {

  /** Index of the first newline, or the length of the text if it has none. */
  function LineEnd(t: string): (i: nat)
    ensures i <= |t|
    ensures forall j :: 0 <= j < i ==> t[j] != '\n'
    ensures i < |t| ==> t[i] == '\n'
  {
    if t == [] || t[0] == '\n' then 0 else 1 + LineEnd(t[1..])
  }

  /** Drop one trailing carriage return. */
  function DropCR(l: string): (r: string)
    ensures r == l || (l != [] && l[|l| - 1] == '\r' && r == l[..|l| - 1])
  {
    if l != [] && l[|l| - 1] == '\r' then l[..|l| - 1] else l
  }

  /** The lines the scanner yields for the text, in order. */
  function SplitLines(t: string): (ls: seq<string>)
    ensures |ls| <= |t|
    ensures forall i :: 0 <= i < |ls| ==> '\n' !in ls[i]
    decreases |t|
  {
    if t == [] then []
    else
      var i := LineEnd(t);
      if i < |t| then [DropCR(t[..i])] + SplitLines(t[i + 1..]) else [DropCR(t)]
  }

  /** A line the scanner gives back unchanged: no newline, no trailing carriage return. */
  predicate IsLine(l: string) {
    '\n' !in l && (l == [] || l[|l| - 1] != '\r')
  }

  /** Lines written one after another, each ended by a newline. */
  function Join(ls: seq<string>): (t: string)
    ensures |t| >= |ls|
    ensures ls != [] ==> t[|t| - 1] == '\n'
  {
    if ls == [] then [] else ls[0] + ("\n" + Join(ls[1..]))
  }

  lemma LineEndAt(l: string, rest: string)
    requires '\n' !in l
    ensures LineEnd(l + ("\n" + rest)) == |l|
  {
    var t := l + ("\n" + rest);
    assert t[|l|] == '\n';
    assert forall j :: 0 <= j < |l| ==> t[j] == l[j];
  }

  /** A line the scanner gives back unchanged comes first, and the scan continues after its newline. */
  lemma SplitLinesCons(l: string, rest: string)
    requires IsLine(l)
    ensures SplitLines(l + ("\n" + rest)) == [l] + SplitLines(rest)
  {
    var t := l + ("\n" + rest);
    LineEndAt(l, rest);
    assert t[..|l|] == l;
    assert t[|l| + 1..] == rest;
    assert DropCR(l) == l;
    assert SplitLines(t) == [DropCR(t[..|l|])] + SplitLines(t[|l| + 1..]);
  }

  /** The scanner recovers exactly the lines that were joined. */
  lemma {:induction false} SplitJoin(ls: seq<string>)
    requires forall i :: 0 <= i < |ls| ==> IsLine(ls[i])
    ensures SplitLines(Join(ls)) == ls
  {
    if ls != [] {
      var tail := ls[1..];
      assert forall i :: 0 <= i < |tail| ==> IsLine(tail[i]) by {
        forall i | 0 <= i < |tail| ensures IsLine(tail[i]) {
          assert tail[i] == ls[i + 1];
        }
      }
      SplitJoin(tail);
      assert IsLine(ls[0]);
      SplitLinesCons(ls[0], Join(tail));
      assert ls == [ls[0]] + tail;
    }
  }
}

=== FILE: service.dfy ===
/** Startup recovery (`initializeTransactionLog`): open the log, replay its
    events into the store one by one, stop at the first error, and then
    switch the logger to live mode.

    The original drains the event and error channels with a `select`; when
    both are ready Go may pick either. The model reads them in the
    deterministic order the reader produces them: every event up to the
    first error, then that error. */
module Service {
  import opened Wrappers
  import Core
  import opened Fmt
  import opened Transact
  import Lines

  // ----- Applying replayed events -----

  datatype Applied = Applied(store: Core.Store, err: Option<Core.KvError>)

  /** One turn of the replay loop: a Delete event becomes Delete, a Put
      event becomes Put, any other kind leaves the store alone. */
  function ApplyEvent(s: Core.Store, e: Event): (r: Applied)
    ensures r.err == None
    ensures e.eventType == EventPut ==> r.store == s[e.key := e.value]
    ensures e.eventType == EventDelete ==> r.store == s - {e.key}
    ensures e.eventType != EventPut && e.eventType != EventDelete ==> r.store == s
  {
    if e.eventType == EventDelete then
      var u := Core.Delete(s, e.key);
      Applied(u.store, u.err)
    else if e.eventType == EventPut then
      var u := Core.Put(s, e.key, e.value);
      Applied(u.store, u.err)
    else
      Applied(s, None)
  }

  /** The replay loop over the events in stream order; it stops at the first
      error a store operation returns. */
  function ApplyEvents(s: Core.Store, evs: seq<Event>): (r: Applied)
    ensures r.err == None
    decreases |evs|
  {
    if evs == [] then Applied(s, None)
    else
      var a := ApplyEvent(s, evs[0]);
      if a.err.Some? then a else ApplyEvents(a.store, evs[1..])
  }

  /** Whether the event is a Put or Delete of `k`. */
  predicate Touches(e: Event, k: string) {
    (e.eventType == EventPut || e.eventType == EventDelete) && e.key == k
  }

  lemma {:induction false} ApplyEventsSnoc(s: Core.Store, evs: seq<Event>, e: Event)
    ensures ApplyEvents(s, evs + [e]).store == ApplyEvent(ApplyEvents(s, evs).store, e).store
    decreases |evs|
  {
    if evs == [] {
      assert evs + [e] == [e];
    } else {
      assert (evs + [e])[1..] == evs[1..] + [e];
      ApplyEventsSnoc(ApplyEvent(s, evs[0]).store, evs[1..], e);
    }
  }

  /** A key no event touches keeps its entry through the replay. */
  lemma {:induction false} UntouchedKeyKept(s: Core.Store, evs: seq<Event>, k: string)
    requires forall j :: 0 <= j < |evs| ==> !Touches(evs[j], k)
    ensures Core.Agree(s, ApplyEvents(s, evs).store, k)
    decreases |evs|
  {
    if evs != [] {
      var a := ApplyEvent(s, evs[0]);
      assert !Touches(evs[0], k);
      assert Core.Agree(s, a.store, k);
      UntouchedKeyKept(a.store, evs[1..], k);
    }
  }

  /** Last write wins: the last event that touches a key decides its entry. */
  lemma LastWriteWins(s: Core.Store, evs: seq<Event>, i: nat, k: string)
    requires i < |evs| && Touches(evs[i], k)
    requires forall j :: i < j < |evs| ==> !Touches(evs[j], k)
    ensures var t := ApplyEvents(s, evs).store;
            && (k in t <==> evs[i].eventType == EventPut)
            && (k in t ==> t[k] == evs[i].value)
  {
    var front, back := evs[..i + 1], evs[i + 1..];
    assert evs == front + back;
    assert front == evs[..i] + [evs[i]];
    ApplyEventsSnoc(s, evs[..i], evs[i]);
    var mid := ApplyEvents(s, front);
    forall j | 0 <= j < |back| ensures !Touches(back[j], k) {
      assert back[j] == evs[i + 1 + j];
    }
    ApplyEventsAppend(s, front, back);
    UntouchedKeyKept(mid.store, back, k);
  }

  lemma {:induction false} ApplyEventsAppend(s: Core.Store, a: seq<Event>, b: seq<Event>)
    ensures ApplyEvents(s, a + b) == ApplyEvents(ApplyEvents(s, a).store, b)
    decreases |a|
  {
    if a == [] {
      assert a + b == b;
    } else {
      assert (a + b)[1..] == a[1..] + b;
      ApplyEventsAppend(ApplyEvent(s, a[0]).store, a[1..], b);
    }
  }

  // ----- The request layer, as far as recovery needs it -----

  /** A mutation the request layer performs: it is applied to the store and
      its event is enqueued for the writer. */
  datatype Op = PutOp(key: string, value: string) | DeleteOp(key: string)

  /** The event enqueued for an operation (before the writer numbers it). */
  function OpEvent(op: Op): Event {
    match op
    case PutOp(k, v) => Event(0, EventPut, k, v)
    case DeleteOp(k) => Event(0, EventDelete, k, "")
  }

  /** The operations applied straight to a store: the reference that
      recovery must reproduce. */
  function ApplyOps(s: Core.Store, ops: seq<Op>): Core.Store
    decreases |ops|
  {
    if ops == [] then s
    else
      var u := match ops[0]
        case PutOp(k, v) => Core.Put(s, k, v)
        case DeleteOp(k) => Core.Delete(s, k);
      ApplyOps(u.store, ops[1..])
  }

  /** The writer's queue after the operations enqueued their events. */
  function Enqueue(q: Queue, ops: seq<Op>): (r: Queue)
    ensures |r| == |q| + |ops| && r[..|q|] == q
    ensures forall i :: 0 <= i < |ops| ==> r[|q| + i] == OpEvent(ops[i])
    decreases |ops|
  {
    if ops == [] then q
    else
      var q' := match ops[0]
        case PutOp(k, v) => WritePut(q, k, v)
        case DeleteOp(k) => WriteDelete(q, k);
      assert q'[|q|] == OpEvent(ops[0]);
      var r := Enqueue(q', ops[1..]);
      assert r[..|q|] == q by {
        assert r[..|q|] == r[..|q'|][..|q|];
      }
      forall i | 0 <= i < |ops| ensures r[|q| + i] == OpEvent(ops[i]) {
        if i == 0 {
          assert r[|q|] == r[..|q'|][|q|];
        } else {
          assert ops[i] == ops[1..][i - 1];
          assert r[|q| + i] == r[|q'| + (i - 1)];
        }
      }
      r
  }

  /** Replaying events that carry the operations' payloads, whatever their
      sequence numbers, gives the store the operations give directly. */
  lemma {:induction false} ReplayMatchesOps(s: Core.Store, evs: seq<Event>, ops: seq<Op>)
    requires |evs| == |ops|
    requires forall i :: 0 <= i < |ops| ==> SamePayload(evs[i], OpEvent(ops[i]))
    ensures ApplyEvents(s, evs) == Applied(ApplyOps(s, ops), None)
    decreases |ops|
  {
    if ops != [] {
      assert SamePayload(evs[0], OpEvent(ops[0]));
      forall i | 0 <= i < |ops[1..]| ensures SamePayload(evs[1..][i], OpEvent(ops[1..][i])) {
        assert evs[1..][i] == evs[i + 1] && ops[1..][i] == ops[i + 1];
      }
      ReplayMatchesOps(ApplyEvent(s, evs[0]).store, evs[1..], ops[1..]);
    }
  }

  // ----- Startup -----

  datatype StartupError =
    | CreateLogger(cause: LogError)   // the log file could not be opened
    | ReplayError(cause: LogError)    // the reader reported an error
    | StoreError(kvCause: Core.KvError) // a store operation failed

  /** The outcome of startup: the recovered store, the logger, whether its
      writer was started (live mode), and the error returned. */
  datatype Startup = Startup(store: Core.Store, logger: Option<FileLogger>, live: bool, err: Option<StartupError>)

  /** `initializeTransactionLog` on a store `s`. `onDisk` is the log file's
      contents (None if it cannot be opened), `readFailed` whether the
      scanner ends with a read error, `parse` the reader's line parser. */
  function InitializeTransactionLog(s: Core.Store, onDisk: Option<string>, readFailed: bool, parse: LineParser): (r: Startup)
    ensures r.live <==> onDisk.Some?
    ensures onDisk.None? ==> r.store == s && r.logger == None && r.err == Some(CreateLogger(OpenFailure))
    ensures onDisk.Some? ==>
              var lines := Lines.SplitLines(onDisk.value);
              var rp := ReadLines(lines, 0, parse);
              && r.logger == Some(FileLogger(onDisk.value, LastSequence(0, rp.events)))
              && r.store == ApplyEvents(s, rp.events).store
              && (r.err == None <==> !readFailed && |rp.events| == |lines|)
              && (r.err == Some(ReplayError(ReadFailure)) <==> readFailed && |rp.events| == |lines|)
              && (|rp.events| < |lines| ==>
                    var p := parse(lines[|rp.events|]);
                    && (r.err == Some(ReplayError(InputParse)) <==> p.Failure?)
                    && (r.err == Some(ReplayError(OutOfSequence)) <==> p.Success? && p.value.sequence <= LastSequence(0, rp.events)))
              && (r.err.Some? ==> r.err.value.ReplayError?)
  {
    match NewFileTransactionLogger(onDisk)
    case Failure(e) => Startup(s, None, false, Some(CreateLogger(e)))
    case Success(l) =>
      var rp := ReadEvents(l, parse, readFailed);
      var a := ApplyEvents(s, rp.events);
      var err :=
        match a.err
        case Some(kvErr) => Some(StoreError(kvErr))
        case None => if rp.err.Some? then Some(ReplayError(rp.err.value)) else None;
      Startup(a.store, Some(FileLogger(l.file, rp.lastSequence)), true, err)
  }

  /** Startup on a file the logger can open and read: the store is the
      replayed events applied in order, the counter the reader's, and the
      error the reader's, if any. */
  lemma StartupAfterReplay(s: Core.Store, file: string, parse: LineParser, rp: Replay)
    requires ReadLines(Lines.SplitLines(file), 0, parse) == rp
    ensures InitializeTransactionLog(s, Some(file), false, parse)
            == Startup(ApplyEvents(s, rp.events).store, Some(FileLogger(file, rp.lastSequence)), true,
                       if rp.err.Some? then Some(ReplayError(rp.err.value)) else None)
  {
  }

  /** The text the writer appends to the log for `ops` when no write fails
      (WriteOpsByRun shows that Run produces it). */
  function WriteOps(l: FileLogger, ops: seq<Op>): string {
    l.file + Log(l.lastSequence, Enqueue([], ops))
  }

  /** The writer, fed the events the operations enqueued, appends WriteOps
      and advances the counter by one per operation. */
  lemma WriteOpsByRun(l: FileLogger, ops: seq<Op>)
    requires l.lastSequence + |ops| < Uint64Bound
    ensures Run(l, Enqueue([], ops), None) == Written(FileLogger(WriteOps(l, ops), l.lastSequence + |ops|), None)
  {
    var q := Enqueue([], ops);
    assert q[..Delivered(q, None)] == q;
    AdvanceNoWrap(l.lastSequence, |q|);
  }

  predicate TokenPut(op: Op) {
    op.PutOp? && IsToken(op.key) && IsToken(op.value)
  }

  predicate StorableOp(op: Op) {
    Storable(OpEvent(op))
  }

  lemma WriteOpsFresh(ops: seq<Op>)
    ensures WriteOps(FileLogger([], 0), ops) == Log(0, Enqueue([], ops))
  {
    assert FileLogger([], 0).file == [];
  }

  /** Startup on a file whose lines all replay: the store is the operations
      applied directly and the counter is at the last sequence number. */
  lemma StartupOnCleanReplay(file: string, ops: seq<Op>, parse: LineParser)
    requires |ops| < Uint64Bound
    requires ReadLines(Lines.SplitLines(file), 0, parse) == Replay(Stamp(0, Enqueue([], ops)), None, |ops|)
    ensures InitializeTransactionLog(Core.Empty, Some(file), false, parse)
            == Startup(ApplyOps(Core.Empty, ops), Some(FileLogger(file, |ops|)), true, None)
  {
    var q := Enqueue([], ops);
    var evs := Stamp(0, q);
    assert ApplyEvents(Core.Empty, evs) == Applied(ApplyOps(Core.Empty, ops), None) by {
      forall i | 0 <= i < |ops| ensures SamePayload(evs[i], OpEvent(ops[i])) {
        assert q[0 + i] == OpEvent(ops[i]);
      }
      ReplayMatchesOps(Core.Empty, evs, ops);
    }
    StartupAfterReplay(Core.Empty, file, parse, Replay(evs, None, |ops|));
  }

  lemma LoggedTokensReplay(ops: seq<Op>)
    requires |ops| < Uint64Bound
    requires forall i :: 0 <= i < |ops| ==> TokenPut(ops[i])
    ensures var q := Enqueue([], ops);
            ReadLines(Lines.SplitLines(Log(0, q)), 0, ParseLine) == Replay(Stamp(0, q), None, |q|)
  {
    var q := Enqueue([], ops);
    forall i | 0 <= i < |q| ensures TokenPayload(q[i]) {
      assert q[0 + i] == OpEvent(ops[i]);
      assert TokenPut(ops[i]);
    }
    ReplayWrittenTokens(0, q);
  }

  lemma LoggedStorableReplay(ops: seq<Op>)
    requires |ops| < Uint64Bound
    requires forall i :: 0 <= i < |ops| ==> StorableOp(ops[i])
    ensures var q := Enqueue([], ops);
            ReadLines(Lines.SplitLines(Log(0, q)), 0, ParseFields) == Replay(Stamp(0, q), None, |q|)
  {
    var q := Enqueue([], ops);
    forall i | 0 <= i < |q| ensures Storable(q[i]) {
      assert q[0 + i] == OpEvent(ops[i]);
      assert StorableOp(ops[i]);
    }
    ReplayWrittenFields(0, q);
  }

  /** Replay is direct application (reader as written): operations that
      are all Puts of white-space-free words, logged from an empty file,
      are recovered on the next startup, and the writer then continues
      after the last sequence number. */
  lemma ReplayEqualsDirect(ops: seq<Op>)
    requires |ops| < Uint64Bound
    requires forall i :: 0 <= i < |ops| ==> TokenPut(ops[i])
    ensures var file := WriteOps(FileLogger([], 0), ops);
            InitializeTransactionLog(Core.Empty, Some(file), false, ParseLine)
            == Startup(ApplyOps(Core.Empty, ops), Some(FileLogger(file, |ops|)), true, None)
  {
    var file := WriteOps(FileLogger([], 0), ops);
    assert file == Log(0, Enqueue([], ops)) by {
      WriteOpsFresh(ops);
    }
    LoggedTokensReplay(ops);
    StartupOnCleanReplay(file, ops, ParseLine);
  }

  /** Replay is direct application (corrected reader): every storable
      operation, Deletes included, is recovered. */
  lemma ReplayEqualsDirectFields(ops: seq<Op>)
    requires |ops| < Uint64Bound
    requires forall i :: 0 <= i < |ops| ==> StorableOp(ops[i])
    ensures var file := WriteOps(FileLogger([], 0), ops);
            InitializeTransactionLog(Core.Empty, Some(file), false, ParseFields)
            == Startup(ApplyOps(Core.Empty, ops), Some(FileLogger(file, |ops|)), true, None)
  {
    var file := WriteOps(FileLogger([], 0), ops);
    assert file == Log(0, Enqueue([], ops)) by {
      WriteOpsFresh(ops);
    }
    LoggedStorableReplay(ops);
    StartupOnCleanReplay(file, ops, ParseFields);
  }

  // ----- Restarts and the first logged Delete -----

  lemma {:induction false} ApplyOpsAppend(s: Core.Store, a: seq<Op>, b: seq<Op>)
    ensures ApplyOps(s, a + b) == ApplyOps(ApplyOps(s, a), b)
    decreases |a|
  {
    if a == [] {
      assert a + b == b;
    } else {
      assert (a + b)[1..] == a[1..] + b;
      var u := match a[0]
        case PutOp(k, v) => Core.Put(s, k, v)
        case DeleteOp(k) => Core.Delete(s, k);
      ApplyOpsAppend(u.store, a[1..], b);
    }
  }

  lemma EnqueueAppend(a: seq<Op>, b: seq<Op>)
    ensures Enqueue([], a + b) == Enqueue([], a) + Enqueue([], b)
  {
    var q, qa, qb := Enqueue([], a + b), Enqueue([], a), Enqueue([], b);
    forall i | 0 <= i < |q| ensures q[i] == (qa + qb)[i] {
      assert q[0 + i] == OpEvent((a + b)[i]);
      if i < |a| {
        assert qa[0 + i] == OpEvent(a[i]);
      } else {
        assert qb[0 + (i - |a|)] == OpEvent(b[i - |a|]);
      }
    }
  }

  /** A second session that continues the counter where the first left
      off appends to the file exactly what one session logging both
      batches would have written. */
  lemma RestartLog(ops1: seq<Op>, ops2: seq<Op>)
    requires |ops1| + |ops2| < Uint64Bound
    ensures WriteOps(FileLogger(WriteOps(FileLogger([], 0), ops1), |ops1|), ops2)
            == WriteOps(FileLogger([], 0), ops1 + ops2)
  {
    var q1, q2 := Enqueue([], ops1), Enqueue([], ops2);
    var file1 := WriteOps(FileLogger([], 0), ops1);
    assert file1 == Log(0, q1) by {
      WriteOpsFresh(ops1);
    }
    assert WriteOps(FileLogger(file1, |ops1|), ops2) == file1 + Log(|ops1|, q2);
    assert WriteOps(FileLogger([], 0), ops1 + ops2) == Log(0, q1 + q2) by {
      WriteOpsFresh(ops1 + ops2);
      EnqueueAppend(ops1, ops2);
    }
    LogAppend(0, q1, q2);
  }

  lemma StorableConcat(ops1: seq<Op>, ops2: seq<Op>)
    requires forall i :: 0 <= i < |ops1| ==> StorableOp(ops1[i])
    requires forall i :: 0 <= i < |ops2| ==> StorableOp(ops2[i])
    ensures forall i :: 0 <= i < |ops1 + ops2| ==> StorableOp((ops1 + ops2)[i])
  {
    var ops := ops1 + ops2;
    forall i | 0 <= i < |ops| ensures StorableOp(ops[i]) {
      if i < |ops1| {
        assert ops[i] == ops1[i];
      } else {
        assert ops[i] == ops2[i - |ops1|];
      }
    }
  }

  /** A second session's log, started from the first session's file and
      counter, recovers the effect of both sessions in order. */
  lemma RestartRecovers(ops1: seq<Op>, ops2: seq<Op>)
    requires |ops1| + |ops2| < Uint64Bound
    requires forall i :: 0 <= i < |ops1| ==> StorableOp(ops1[i])
    requires forall i :: 0 <= i < |ops2| ==> StorableOp(ops2[i])
    ensures var file2 := WriteOps(FileLogger(WriteOps(FileLogger([], 0), ops1), |ops1|), ops2);
            InitializeTransactionLog(Core.Empty, Some(file2), false, ParseFields)
            == Startup(ApplyOps(ApplyOps(Core.Empty, ops1), ops2), Some(FileLogger(file2, |ops1| + |ops2|)), true, None)
  {
    StorableConcat(ops1, ops2);
    RestartLog(ops1, ops2);
    ApplyOpsAppend(Core.Empty, ops1, ops2);
    ReplayEqualsDirectFields(ops1 + ops2);
  }

  /** Recovery across restarts (corrected reader): start on the file of a
      first session, log more operations from the recovered counter, and
      the next startup recovers the effect of both sessions in order. */
  lemma RecoveryAcrossRestarts(ops1: seq<Op>, ops2: seq<Op>)
    requires |ops1| + |ops2| < Uint64Bound
    requires forall i :: 0 <= i < |ops1| ==> StorableOp(ops1[i])
    requires forall i :: 0 <= i < |ops2| ==> StorableOp(ops2[i])
    ensures var file1 := WriteOps(FileLogger([], 0), ops1);
            var file2 := WriteOps(FileLogger(file1, |ops1|), ops2);
            && InitializeTransactionLog(Core.Empty, Some(file1), false, ParseFields)
               == Startup(ApplyOps(Core.Empty, ops1), Some(FileLogger(file1, |ops1|)), true, None)
            && InitializeTransactionLog(Core.Empty, Some(file2), false, ParseFields)
               == Startup(ApplyOps(ApplyOps(Core.Empty, ops1), ops2), Some(FileLogger(file2, |ops1| + |ops2|)), true, None)
  {
    ReplayEqualsDirectFields(ops1);
    RestartRecovers(ops1, ops2);
  }

  lemma TokenPutConcat(ops1: seq<Op>, ops2: seq<Op>)
    requires forall i :: 0 <= i < |ops1| ==> TokenPut(ops1[i])
    requires forall i :: 0 <= i < |ops2| ==> TokenPut(ops2[i])
    ensures forall i :: 0 <= i < |ops1 + ops2| ==> TokenPut((ops1 + ops2)[i])
  {
    var ops := ops1 + ops2;
    forall i | 0 <= i < |ops| ensures TokenPut(ops[i]) {
      if i < |ops1| {
        assert ops[i] == ops1[i];
      } else {
        assert ops[i] == ops2[i - |ops1|];
      }
    }
  }

  /** Recovery across restarts (reader as written), for sessions that log
      only Puts of white-space-free words. */
  lemma RecoveryAcrossRestartsTokens(ops1: seq<Op>, ops2: seq<Op>)
    requires |ops1| + |ops2| < Uint64Bound
    requires forall i :: 0 <= i < |ops1| ==> TokenPut(ops1[i])
    requires forall i :: 0 <= i < |ops2| ==> TokenPut(ops2[i])
    ensures var file1 := WriteOps(FileLogger([], 0), ops1);
            var file2 := WriteOps(FileLogger(file1, |ops1|), ops2);
            && InitializeTransactionLog(Core.Empty, Some(file1), false, ParseLine)
               == Startup(ApplyOps(Core.Empty, ops1), Some(FileLogger(file1, |ops1|)), true, None)
            && InitializeTransactionLog(Core.Empty, Some(file2), false, ParseLine)
               == Startup(ApplyOps(ApplyOps(Core.Empty, ops1), ops2), Some(FileLogger(file2, |ops1| + |ops2|)), true, None)
  {
    ReplayEqualsDirect(ops1);
    TokenPutConcat(ops1, ops2);
    RestartLog(ops1, ops2);
    ApplyOpsAppend(Core.Empty, ops1, ops2);
    ReplayEqualsDirect(ops1 + ops2);
  }

  // ----- Counter wrap-around -----

  /** The largest sequence number a uint64 counter holds. */
  const MaxSequence: u64 := Uint64Bound - 1

  /** A log holding one record, the way the scanner cuts it. */
  lemma OneRecordLines(n: u64, e: Event)
    requires Storable(e)
    ensures Lines.SplitLines(FormatLine(n, e)) == [Record(n, e)]
  {
    RecordIsLine(n, e);
    Lines.SplitLinesCons(Record(n, e), []);
    assert Record(n, e) + ("\n" + []) == FormatLine(n, e);
  }

  /** A log holding two records, the way the scanner cuts it. */
  lemma TwoRecordLines(n1: u64, e1: Event, n2: u64, e2: Event)
    requires Storable(e1) && Storable(e2)
    ensures Lines.SplitLines(FormatLine(n1, e1) + FormatLine(n2, e2)) == [Record(n1, e1), Record(n2, e2)]
  {
    var r1, f2 := Record(n1, e1), FormatLine(n2, e2);
    assert FormatLine(n1, e1) + f2 == r1 + ("\n" + f2);
    assert Lines.SplitLines(r1 + ("\n" + f2)) == [r1] + Lines.SplitLines(f2) by {
      RecordIsLine(n1, e1);
      Lines.SplitLinesCons(r1, f2);
    }
    OneRecordLines(n2, e2);
  }

  /** The wrap needs no 2^64 writes: a log whose line is numbered 2^64 - 1
      leaves the recovered counter there, the next write is numbered 0,
      and the startup after that stops at that line with OutOfSequence,
      losing it and everything logged after it. */
  lemma WrapStopsNextStartup(e1: Event, e2: Event, parse: LineParser)
    requires Storable(e1) && Storable(e2)
    requires parse(Record(MaxSequence, e1)) == Success(e1.(sequence := MaxSequence))
    requires parse(Record(0, e2)) == Success(e2.(sequence := 0))
    ensures var file := FormatLine(MaxSequence, e1);
            var s1 := InitializeTransactionLog(Core.Empty, Some(file), false, parse);
            && s1.err == None && s1.logger == Some(FileLogger(file, MaxSequence))
            && Run(FileLogger(file, MaxSequence), [e2], None) == Written(FileLogger(file + FormatLine(0, e2), 0), None)
            && InitializeTransactionLog(Core.Empty, Some(file + FormatLine(0, e2)), false, parse).err
               == Some(ReplayError(OutOfSequence))
  {
    var file := FormatLine(MaxSequence, e1);
    var lines := [Record(MaxSequence, e1)];
    OneRecordLines(MaxSequence, e1);
    assert ReadLines(lines, 0, parse) == Replay([e1.(sequence := MaxSequence)], None, MaxSequence) by {
      assert lines[1..] == [];
    }
    var q := [e2];
    assert q[..Delivered(q, None)] == q;
    assert Log(MaxSequence, q) == FormatLine(0, e2) by {
      assert q[1..] == [];
    }
    var lines2 := [Record(MaxSequence, e1), Record(0, e2)];
    TwoRecordLines(MaxSequence, e1, 0, e2);
    assert ReadLines(lines2, 0, parse) == Replay([e1.(sequence := MaxSequence)], Some(OutOfSequence), MaxSequence) by {
      assert lines2[1..] == [Record(0, e2)];
    }
  }

  lemma EnqueuedStorable(ops: seq<Op>)
    requires forall i :: 0 <= i < |ops| ==> StorableOp(ops[i])
    ensures forall i :: 0 <= i < |Enqueue([], ops)| ==> Storable(Enqueue([], ops)[i])
  {
    var q := Enqueue([], ops);
    forall i | 0 <= i < |q| ensures Storable(q[i]) {
      assert q[0 + i] == OpEvent(ops[i]);
      assert StorableOp(ops[i]);
    }
  }

  /** The lines of a log written from an empty file are the writer's
      records, numbered from 1. */
  lemma LoggedLines(ops: seq<Op>)
    requires |ops| < Uint64Bound
    requires forall i :: 0 <= i < |ops| ==> StorableOp(ops[i])
    ensures Lines.SplitLines(WriteOps(FileLogger([], 0), ops)) == Records(0, Enqueue([], ops))
  {
    var q := Enqueue([], ops);
    assert WriteOps(FileLogger([], 0), ops) == Log(0, q) by {
      WriteOpsFresh(ops);
    }
    EnqueuedStorable(ops);
    LogLines(0, q);
  }

  lemma DeleteLogStorable(puts: seq<Op>, key: string, later: seq<Op>)
    requires forall i :: 0 <= i < |puts| ==> TokenPut(puts[i])
    requires NoSpace(key)
    requires forall i :: 0 <= i < |later| ==> StorableOp(later[i])
    ensures var ops := puts + [DeleteOp(key)] + later;
            forall i :: 0 <= i < |ops| ==> StorableOp(ops[i])
  {
    var ops := puts + [DeleteOp(key)] + later;
    forall i | 0 <= i < |ops| ensures StorableOp(ops[i]) {
      if i < |puts| {
        assert ops[i] == puts[i] && TokenPut(puts[i]);
        TokenPayloadStorable(OpEvent(ops[i]));
      } else if i == |puts| {
        assert ops[i] == DeleteOp(key);
        assert IsSpace('\t') && IsSpace('\n');
      } else {
        assert ops[i] == later[i - |puts| - 1];
      }
    }
  }

  /** The queue for word Puts, a Delete and anything after it. */
  lemma DeleteLogQueue(puts: seq<Op>, key: string, later: seq<Op>)
    requires forall i :: 0 <= i < |puts| ==> TokenPut(puts[i])
    ensures var q := Enqueue([], puts + [DeleteOp(key)] + later);
            && (forall i :: 0 <= i < |puts| ==> TokenPayload(q[i]))
            && q[|puts|] == Event(0, EventDelete, key, "")
  {
    var ops := puts + [DeleteOp(key)] + later;
    var q := Enqueue([], ops);
    forall i | 0 <= i < |puts| ensures TokenPayload(q[i]) {
      assert q[0 + i] == OpEvent(ops[i]);
      assert ops[i] == puts[i] && TokenPut(puts[i]);
    }
    assert q[0 + |puts|] == OpEvent(ops[|puts|]);
    assert ops[|puts|] == DeleteOp(key);
  }

  /** The reader as written on a log of word Puts, one Delete and anything
      after it: the Puts come back, then the Delete's line fails to parse. */
  lemma DeleteLogReplay(puts: seq<Op>, key: string, later: seq<Op>)
    requires |puts| + 1 + |later| < Uint64Bound
    requires forall i :: 0 <= i < |puts| ==> TokenPut(puts[i])
    requires NoSpace(key)
    requires forall i :: 0 <= i < |later| ==> StorableOp(later[i])
    ensures var ops := puts + [DeleteOp(key)] + later;
            ReadLines(Lines.SplitLines(WriteOps(FileLogger([], 0), ops)), 0, ParseLine)
            == Replay(Stamp(0, Enqueue([], ops)[..|puts|]), Some(InputParse), |puts|)
  {
    var ops := puts + [DeleteOp(key)] + later;
    var q := Enqueue([], ops);
    assert Lines.SplitLines(WriteOps(FileLogger([], 0), ops)) == Records(0, q) by {
      DeleteLogStorable(puts, key, later);
      LoggedLines(ops);
    }
    assert ReadLines(Records(0, q), 0, ParseLine) == Replay(Stamp(0, q[..|puts|]), Some(InputParse), |puts|) by {
      DeleteLogQueue(puts, key, later);
      ReplayStopsAtEmptyValue(0, q, |puts|);
    }
  }

  /** The events replayed before the Delete rebuild the Puts' store. */
  lemma DeleteLogPrefix(puts: seq<Op>, key: string, later: seq<Op>)
    requires |puts| + 1 + |later| < Uint64Bound
    ensures var q := Enqueue([], puts + [DeleteOp(key)] + later);
            ApplyEvents(Core.Empty, Stamp(0, q[..|puts|])) == Applied(ApplyOps(Core.Empty, puts), None)
  {
    var ops := puts + [DeleteOp(key)] + later;
    var q := Enqueue([], ops);
    var evs := Stamp(0, q[..|puts|]);
    forall i | 0 <= i < |puts| ensures SamePayload(evs[i], OpEvent(puts[i])) {
      assert q[0 + i] == OpEvent(ops[i]);
      assert ops[i] == puts[i];
    }
    ReplayMatchesOps(Core.Empty, evs, puts);
  }

  /** With the reader as written, the first logged Delete ends recovery:
      the Puts before it are recovered, nothing from it on is, the counter
      stops at the last recovered Put, and startup reports a parse error. */
  lemma DeleteAbortsStartup(puts: seq<Op>, key: string, later: seq<Op>)
    requires |puts| + 1 + |later| < Uint64Bound
    requires forall i :: 0 <= i < |puts| ==> TokenPut(puts[i])
    requires NoSpace(key)
    requires forall i :: 0 <= i < |later| ==> StorableOp(later[i])
    ensures var file := WriteOps(FileLogger([], 0), puts + [DeleteOp(key)] + later);
            InitializeTransactionLog(Core.Empty, Some(file), false, ParseLine)
            == Startup(ApplyOps(Core.Empty, puts), Some(FileLogger(file, |puts|)), true, Some(ReplayError(InputParse)))
  {
    var ops := puts + [DeleteOp(key)] + later;
    var q := Enqueue([], ops);
    var file := WriteOps(FileLogger([], 0), ops);
    var evs := Stamp(0, q[..|puts|]);
    assert ReadLines(Lines.SplitLines(file), 0, ParseLine) == Replay(evs, Some(InputParse), |puts|) by {
      DeleteLogReplay(puts, key, later);
    }
    assert ApplyEvents(Core.Empty, evs) == Applied(ApplyOps(Core.Empty, puts), None) by {
      DeleteLogPrefix(puts, key, later);
    }
    StartupAfterReplay(Core.Empty, file, ParseLine, Replay(evs, Some(InputParse), |puts|));
  }
}

=== FILE: transact.dfy ===
/** The file transaction logger: events, the writer that appends them to the
    log file as tab-separated lines, and the reader that replays the file.

    The goroutines and channels of the original are replaced by explicit
    sequences: the writer consumes a queue of pending events, the reader
    produces the list of replayed events and at most one error. */
module Transact {
  import opened Wrappers
  import opened Fmt
  import Lines

  type u8 = x: int | 0 <= x < 0x100
  type u64 = x: int | 0 <= x < 0x1_0000_0000_0000_0000

  /** Event kinds. The blank identifier takes the value 0, so no kind a
      writer produces is 0. */
  const EventDelete: u8 := 1
  const EventPut: u8 := 2

  datatype Event = Event(sequence: u64, eventType: u8, key: string, value: string)

  /** Events waiting for the writer, oldest first. */
  type Queue = seq<Event>

  /** Everything in an event except its sequence number. */
  predicate SamePayload(a: Event, b: Event) {
    a.eventType == b.eventType && a.key == b.key && a.value == b.value
  }

  // ----- Enqueueing -----

  /** Enqueue a Put; the writer, not the caller, assigns the sequence number. */
  function WritePut(q: Queue, key: string, value: string): (r: Queue)
    ensures |r| == |q| + 1 && r[..|q|] == q
    ensures r[|q|].sequence == 0
    ensures r[|q|].eventType == EventPut && r[|q|].key == key && r[|q|].value == value
  {
    q + [Event(0, EventPut, key, value)]
  }

  /** Enqueue a Delete; it carries no value. */
  function WriteDelete(q: Queue, key: string): (r: Queue)
    ensures |r| == |q| + 1 && r[..|q|] == q
    ensures r[|q|].sequence == 0
    ensures r[|q|].eventType == EventDelete && r[|q|].key == key && r[|q|].value == ""
  {
    q + [Event(0, EventDelete, key, "")]
  }

  // ----- The line format -----

  /** `"%d\t%d\t%s\t%s"` of a sequence number and an event. */
  function Record(n: u64, e: Event): string {
    Decimal(n) + ("\t" + (Decimal(e.eventType) + ("\t" + (e.key + ("\t" + e.value)))))
  }

  /** One line of the log file as the writer prints it. */
  function FormatLine(n: u64, e: Event): string {
    Record(n, e) + "\n"
  }

  /** The reader's `Sscanf(line, "%d\t%d\t%s\t%s", ...)`: sequence (64 bits),
      kind (8 bits), key and value as white-space-free words; whatever
      follows the value is ignored. Scanning goes through the format left
      to right; ParseKind and ParseWords are the rest of the format after
      each number and its tab. */
  function ParseLine(line: string): (r: Result<Event, ScanError>)
    ensures r.Success? ==> IsToken(r.value.key) && IsToken(r.value.value)
  {
    var sq :- ScanUint(line, Uint64Bound);
    var t :- MatchSpace(sq.rest);
    ParseKind(sq.value, t)
  }

  function ParseKind(sq: u64, t: string): (r: Result<Event, ScanError>)
    ensures r.Success? ==> r.value.sequence == sq && IsToken(r.value.key) && IsToken(r.value.value)
  {
    var kind :- ScanUint(t, Uint8Bound);
    var t' :- MatchSpace(kind.rest);
    ParseWords(sq, kind.value, t')
  }

  function ParseWords(sq: u64, kind: u8, t: string): (r: Result<Event, ScanError>)
    ensures r.Success? ==> r.value.sequence == sq && r.value.eventType == kind
    ensures r.Success? ==> IsToken(r.value.key) && IsToken(r.value.value)
  {
    var key :- ScanString(t);
    var t' :- MatchSpace(key.rest);
    var value :- ScanString(t');
    Success(Event(sq, kind, key.value, value.value))
  }

  /** The text before the first tab, and the text after it. */
  function Field(t: string): (r: Result<Scanned<string>, ScanError>)
    ensures r.Failure? <==> '\t' !in t
    ensures r.Success? ==> '\t' !in r.value.value && t == r.value.value + ("\t" + r.value.rest)
  {
    if t == [] then Failure(MissingField)
    else if t[0] == '\t' then Success(Scanned([], t[1..]))
    else
      var f :- Field(t[1..]);
      Success(Scanned([t[0]] + f.value, f.rest))
  }

  /** A decimal field read as an unsigned integer below `bound`: digits only. */
  function ParseDecimal(s: string, bound: nat): (r: Result<nat, ScanError>)
    ensures r.Success? <==> s != [] && AllDigits(s) && DigitsValue(s) < bound
    ensures r.Success? ==> r.value == DigitsValue(s) && r.value < bound
  {
    if s == [] || !AllDigits(s) then Failure(ExpectedInteger)
    else if DigitsValue(s) >= bound then Failure(IntegerOverflow)
    else Success(DigitsValue(s))
  }

  /** The corrected reader: split the line at its first three tabs, so that
      an empty value and values with blanks come back as written. */
  function ParseFields(line: string): (r: Result<Event, ScanError>)
    ensures r.Success? ==> '\t' !in r.value.key
    ensures '\t' !in line ==> r.Failure?
  {
    var f1 :- Field(line);
    var f2 :- Field(f1.rest);
    var f3 :- Field(f2.rest);
    var sq :- ParseDecimal(f1.value, Uint64Bound);
    var kind :- ParseDecimal(f2.value, Uint8Bound);
    Success(Event(sq, kind, f3.value, f3.rest))
  }

  /** What `%s` reads back unchanged, in both fields. */
  predicate TokenPayload(e: Event) {
    IsToken(e.key) && IsToken(e.value)
  }

  /** What the corrected reader and the line scanner give back unchanged. */
  predicate Storable(e: Event) {
    && '\t' !in e.key && '\n' !in e.key
    && '\n' !in e.value && (e.value == [] || e.value[|e.value| - 1] != '\r')
  }

  lemma RecordIsLine(n: u64, e: Event)
    requires Storable(e)
    ensures Lines.IsLine(Record(n, e))
  {
    var d1, d2 := Decimal(n), Decimal(e.eventType);
    assert '\n' !in d1 by { assert forall i :: 0 <= i < |d1| ==> IsDigit(d1[i]); }
    assert '\n' !in d2 by { assert forall i :: 0 <= i < |d2| ==> IsDigit(d2[i]); }
    var r := Record(n, e);
    if e.value == [] {
      assert r[|r| - 1] == '\t';
    } else {
      assert r[|r| - 1] == e.value[|e.value| - 1];
    }
  }

  lemma TokenPayloadStorable(e: Event)
    requires TokenPayload(e)
    ensures Storable(e)
  {
    assert IsSpace('\t') && IsSpace('\n') && IsSpace('\r');
    assert '\t' !in e.key && '\n' !in e.key by {
      forall i | 0 <= i < |e.key| ensures e.key[i] != '\t' && e.key[i] != '\n' {
        assert !IsSpace(e.key[i]);
      }
    }
    assert '\n' !in e.value by {
      forall i | 0 <= i < |e.value| ensures e.value[i] != '\n' {
        assert !IsSpace(e.value[i]);
      }
    }
    assert !IsSpace(e.value[|e.value| - 1]);
  }

  /** `%d\t` of a sequence number is read back, and the scan goes on
      after the tab and the blanks following it. */
  lemma ParseLineDecimal(n: u64, t: string)
    ensures ParseLine(Decimal(n) + ("\t" + t)) == ParseKind(n, SkipBlanks(t))
  {
    ScanUintDecimal(n, "\t" + t, Uint64Bound);
    MatchTab(t);
  }

  lemma ParseKindDecimal(sq: u64, kind: u8, t: string)
    ensures ParseKind(sq, Decimal(kind) + ("\t" + t)) == ParseWords(sq, kind, SkipBlanks(t))
  {
    ScanUintDecimal(kind, "\t" + t, Uint8Bound);
    MatchTab(t);
  }

  /** The kind and the words after the sequence number, as the writer
      prints them, are scanned as ParseWords scans the words. */
  lemma ParseRecord(n: u64, e: Event)
    requires e.key != [] && !IsSpace(e.key[0])
    ensures ParseLine(Record(n, e)) == ParseWords(n, e.eventType, e.key + ("\t" + e.value))
  {
    var t := e.key + ("\t" + e.value);
    var d := Decimal(e.eventType);
    assert ParseLine(Record(n, e)) == ParseKind(n, d + ("\t" + t)) by {
      ParseLineDecimal(n, d + ("\t" + t));
      assert (d + ("\t" + t))[0] == d[0];
      SkipBlanksWord(d + ("\t" + t));
    }
    assert ParseKind(n, d + ("\t" + t)) == ParseWords(n, e.eventType, t) by {
      ParseKindDecimal(n, e.eventType, t);
      assert t[0] == e.key[0];
      SkipBlanksWord(t);
    }
  }

  /** Two words separated by a tab are read back as key and value. */
  lemma ParseWordsTokens(sq: u64, kind: u8, key: string, value: string, tail: string)
    requires IsToken(key) && IsToken(value)
    requires tail == [] || IsSpace(tail[0])
    ensures ParseWords(sq, kind, key + ("\t" + (value + tail))) == Success(Event(sq, kind, key, value))
  {
    var v := value + tail;
    assert ScanString(key + ("\t" + v)) == Success(Scanned(key, "\t" + v)) by {
      ScanStringToken(key, "\t" + v);
    }
    assert MatchSpace("\t" + v) == Success(v) by {
      MatchTab(v);
      assert v[0] == value[0];
      SkipBlanksWord(v);
    }
    ScanStringToken(value, tail);
  }

  /** `Sscanf` reads back a line the writer printed, as long as key and
      value are non-empty and free of white space. */
  lemma ParseLineRoundTrip(n: u64, e: Event)
    requires TokenPayload(e)
    ensures ParseLine(Record(n, e)) == Success(e.(sequence := n))
  {
    ParseRecord(n, e);
    assert e.value + [] == e.value;
    ParseWordsTokens(n, e.eventType, e.key, e.value, []);
  }

  /** The line of an event whose value is empty, or blanks only, never
      parses: after the key, the final tab consumes the rest of the line
      and `%s` meets the end of the input. */
  lemma EmptyValueRejected(n: u64, e: Event)
    requires NoSpace(e.key) && SkipBlanks(e.value) == []
    ensures ParseLine(Record(n, e)).Failure?
  {
    var w := "\t" + e.value;
    MatchFinalTab(e.value);
    if e.key == [] {
      var d := Decimal(e.eventType);
      assert Record(n, e) == Decimal(n) + ("\t" + (d + ("\t" + w)));
      ParseLineDecimal(n, d + ("\t" + w));
      assert (d + ("\t" + w))[0] == d[0];
      SkipBlanksWord(d + ("\t" + w));
      ParseKindDecimal(n, e.eventType, w);
    } else {
      ParseRecord(n, e);
      ScanStringToken(e.key, w);
    }
  }

  /** So the line of every Delete the writer prints is rejected on replay. */
  lemma DeleteLineRejected(n: u64, q: Queue, key: string)
    requires NoSpace(key)
    ensures ParseLine(Record(n, WriteDelete(q, key)[|q|])).Failure?
  {
    EmptyValueRejected(n, WriteDelete(q, key)[|q|]);
  }

  /** The same holds for a Put of an empty value, which the request
      layer accepts from an empty body. */
  lemma EmptyPutLineRejected(n: u64, q: Queue, key: string)
    requires NoSpace(key)
    ensures ParseLine(Record(n, WritePut(q, key, "")[|q|])).Failure?
  {
    EmptyValueRejected(n, WritePut(q, key, "")[|q|]);
  }

  /** Two words with a blank between them, then a final tab, are read as
      key and value. */
  lemma ParseWordsBlank(sq: u64, kind: u8, k1: string, c: char, k2: string)
    requires IsToken(k1) && IsToken(k2) && IsSpace(c) && c != '\n'
    ensures ParseWords(sq, kind, k1 + ([c] + (k2 + "\t"))) == Success(Event(sq, kind, k1, k2))
  {
    var rest := k2 + "\t";
    assert ScanString(k1 + ([c] + rest)) == Success(Scanned(k1, [c] + rest)) by {
      ScanStringToken(k1, [c] + rest);
    }
    assert MatchSpace([c] + rest) == Success(rest) by {
      MatchBlank(c, rest);
      assert rest[0] == k2[0];
      SkipBlanksWord(rest);
    }
    ScanStringToken(k2, "\t");
  }

  /** A Delete of a key made of two words with a blank between them
      parses without error as a Delete of the first word, with the second
      word as its value: replay deletes a different key. */
  lemma SpacedKeyDeleteMisread(n: u64, q: Queue, k1: string, c: char, k2: string)
    requires IsToken(k1) && IsToken(k2) && IsSpace(c) && c != '\n'
    ensures ParseLine(Record(n, WriteDelete(q, k1 + [c] + k2)[|q|])) == Success(Event(n, EventDelete, k1, k2))
  {
    var key := k1 + [c] + k2;
    var e := Event(0, EventDelete, key, "");
    assert WriteDelete(q, key)[|q|] == e;
    var t := k1 + ([c] + (k2 + "\t"));
    assert key + ("\t" + e.value) == t;
    assert e.key != [] && !IsSpace(e.key[0]) by {
      assert key[0] == k1[0];
    }
    ParseRecord(n, e);
    ParseWordsBlank(n, EventDelete, k1, c, k2);
  }

  /** A value with white space in it parses without error, but only up to
      the first blank: the rest of the value is silently lost. */
  lemma SpacedValueTruncated(n: u64, e: Event, word: string, tail: string)
    requires IsToken(e.key) && IsToken(word)
    requires e.value == word + tail && tail != [] && IsSpace(tail[0])
    ensures ParseLine(Record(n, e)) == Success(Event(n, e.eventType, e.key, word))
  {
    ParseRecord(n, e);
    ParseWordsTokens(n, e.eventType, e.key, word, tail);
  }

  /** A character other than a tab joins the field that follows it. */
  lemma FieldCons(c: char, u: string)
    requires c != '\t' && Field(u).Success?
    ensures Field([c] + u) == Success(Scanned([c] + Field(u).value.value, Field(u).value.rest))
  {
    var t := [c] + u;
    assert t[0] == c && t[1..] == u;
  }

  lemma {:induction false} FieldPrefix(f: string, rest: string)
    requires '\t' !in f
    ensures Field(f + ("\t" + rest)) == Success(Scanned(f, rest))
    decreases |f|
  {
    if f == [] {
      assert f + ("\t" + rest) == "\t" + rest;
      assert ("\t" + rest)[1..] == rest;
    } else {
      var c, g := f[0], f[1..];
      assert f == [c] + g;
      assert '\t' !in g by {
        assert forall i :: 0 <= i < |g| ==> g[i] == f[i + 1];
      }
      var u := g + ("\t" + rest);
      assert f + ("\t" + rest) == [c] + u;
      FieldPrefix(g, rest);
      FieldCons(c, u);
    }
  }

  lemma DigitsHaveNoTab(d: string)
    requires AllDigits(d)
    ensures '\t' !in d
  {
    assert forall i :: 0 <= i < |d| ==> IsDigit(d[i]);
  }

  /** The corrected reader reads back every line the writer prints whose key has no tab. */
  lemma ParseFieldsRoundTrip(n: u64, e: Event)
    requires '\t' !in e.key
    ensures ParseFields(Record(n, e)) == Success(e.(sequence := n))
  {
    var d1, d2 := Decimal(n), Decimal(e.eventType);
    var t3 := e.key + ("\t" + e.value);
    var t2 := d2 + ("\t" + t3);
    assert Record(n, e) == d1 + ("\t" + t2);
    assert Field(d1 + ("\t" + t2)) == Success(Scanned(d1, t2)) by {
      DigitsHaveNoTab(d1);
      FieldPrefix(d1, t2);
    }
    assert Field(t2) == Success(Scanned(d2, t3)) by {
      DigitsHaveNoTab(d2);
      FieldPrefix(d2, t3);
    }
    assert Field(t3) == Success(Scanned(e.key, e.value)) by {
      FieldPrefix(e.key, e.value);
    }
    assert ParseDecimal(d1, Uint64Bound) == Success(n as nat) by {
      DecimalRoundTrip(n);
    }
    assert ParseDecimal(d2, Uint8Bound) == Success(e.eventType as nat) by {
      DecimalRoundTrip(e.eventType);
    }
  }

  // ----- The writer -----

  datatype LogError =
    | OpenFailure    // the log file cannot be opened
    | InputParse     // a line does not parse
    | OutOfSequence  // a line's sequence number is not above the previous one
    | ReadFailure    // the scanner reports a read error
    | WriteFailure   // a write to the log file fails

  /** The file logger's state: the contents of its file and the last
      sequence number used. */
  datatype FileLogger = FileLogger(file: string, lastSequence: u64)

  /** Open (or create) the log file; `onDisk` is its contents, or None if it
      cannot be opened. A new logger has used no sequence number yet. */
  function NewFileTransactionLogger(onDisk: Option<string>): (r: Result<FileLogger, LogError>)
    ensures r.Success? <==> onDisk.Some?
    ensures r.Success? ==> r.value.lastSequence == 0 && r.value.file == onDisk.value
    ensures r.Failure? ==> r.error == OpenFailure
  {
    match onDisk
    case None => Failure(OpenFailure)
    case Some(contents) => Success(FileLogger(contents, 0))
  }

  /** `lastSequence++` on a 64-bit unsigned counter. */
  function Next(n: u64): (m: u64)
    ensures m == (n + 1) % Uint64Bound
  {
    if n + 1 == Uint64Bound then 0 else n + 1
  }

  /** The counter after `k` increments. */
  function Advance(n: u64, k: nat): u64
    decreases k
  {
    if k == 0 then n else Advance(Next(n), k - 1)
  }

  lemma {:induction false} AdvanceNoWrap(n: u64, k: nat)
    requires n + k < Uint64Bound
    ensures Advance(n, k) == n + k
    decreases k
  {
    if k > 0 {
      AdvanceNoWrap(Next(n), k - 1);
    }
  }

  /** The text the writer appends for the queue, numbering from `start + 1`. */
  function Log(start: u64, q: Queue): string
    decreases |q|
  {
    if q == [] then [] else FormatLine(Next(start), q[0]) + Log(Next(start), q[1..])
  }

  /** Whether the write with index `failAt` falls within the queue. */
  predicate Fails(q: Queue, failAt: Option<nat>) {
    failAt.Some? && failAt.value < |q|
  }

  /** How many events are written before the writer stops. */
  function Delivered(q: Queue, failAt: Option<nat>): (m: nat)
    ensures m <= |q|
  {
    if Fails(q, failAt) then failAt.value else |q|
  }

  datatype Written = Written(logger: FileLogger, err: Option<LogError>)

  /** The writer goroutine started by Run, fed the queue in order. Each
      event gets the next sequence number and is appended as one line;
      `failAt` is the index of the first write that fails (None if none
      does), and a failed write appends nothing. */
  function Run(l: FileLogger, q: Queue, failAt: Option<nat>): (r: Written)
    ensures r.err.Some? <==> Fails(q, failAt)
    ensures r.err.Some? ==> r.err.value == WriteFailure
    ensures r.logger.file == l.file + Log(l.lastSequence, q[..Delivered(q, failAt)])
    ensures r.logger.lastSequence
            == Advance(l.lastSequence, Delivered(q, failAt) + if Fails(q, failAt) then 1 else 0)
    decreases |q|
  {
    if q == [] then Written(l, None)
    else
      var n := Next(l.lastSequence);
      if failAt == Some(0) then Written(FileLogger(l.file, n), Some(WriteFailure))
      else
        var rest := if failAt.Some? then Some(failAt.value - 1) else None;
        var r := Run(FileLogger(l.file + FormatLine(n, q[0]), n), q[1..], rest);
        assert q[1..][..Delivered(q[1..], rest)] == q[..Delivered(q, failAt)][1..];
        r
  }

  /** The writer ignores the sequence number an enqueued event carries. */
  lemma {:induction false} RunIgnoresSequence(l: FileLogger, q: Queue, q': Queue, failAt: Option<nat>)
    requires |q| == |q'|
    requires forall i :: 0 <= i < |q| ==> SamePayload(q[i], q'[i])
    ensures Run(l, q, failAt) == Run(l, q', failAt)
    decreases |q|
  {
    if q != [] {
      var n := Next(l.lastSequence);
      assert FormatLine(n, q[0]) == FormatLine(n, q'[0]);
      if failAt != Some(0) {
        var rest := if failAt.Some? then Some(failAt.value - 1) else None;
        RunIgnoresSequence(FileLogger(l.file + FormatLine(n, q[0]), n), q[1..], q'[1..], rest);
      }
    }
  }

  /** The lines the writer prints for the queue, numbered from `start + 1`. */
  function Records(start: u64, q: Queue): (ls: seq<string>)
    requires start + |q| < Uint64Bound
    ensures |ls| == |q|
    ensures forall i :: 0 <= i < |q| ==> ls[i] == Record(start + 1 + i, q[i])
    decreases |q|
  {
    if q == [] then [] else [Record(start + 1, q[0])] + Records(start + 1, q[1..])
  }

  /** The queue as the reader sees it again: numbered from `start + 1`. */
  function Stamp(start: u64, q: Queue): (r: seq<Event>)
    requires start + |q| < Uint64Bound
    ensures |r| == |q|
    ensures forall i :: 0 <= i < |q| ==> r[i] == q[i].(sequence := start + 1 + i)
    decreases |q|
  {
    if q == [] then [] else [q[0].(sequence := start + 1)] + Stamp(start + 1, q[1..])
  }

  /** Without wrap-around, the written text is the numbered lines, each ended by a newline. */
  lemma {:induction false} LogIsJoin(start: u64, q: Queue)
    requires start + |q| < Uint64Bound
    ensures Log(start, q) == Lines.Join(Records(start, q))
    decreases |q|
  {
    if q != [] {
      LogIsJoin(start + 1, q[1..]);
      var r := Record(start + 1, q[0]);
      var j := Lines.Join(Records(start + 1, q[1..]));
      assert Records(start, q) == [r] + Records(start + 1, q[1..]);
      assert Lines.Join(Records(start, q)) == r + ("\n" + j);
      assert (r + "\n") + j == r + ("\n" + j);
    }
  }

  /** Writing more extends the log: what was written before is left as it was. */
  lemma {:induction false} LogAppend(start: u64, q1: Queue, q2: Queue)
    requires start + |q1| + |q2| < Uint64Bound
    ensures Log(start, q1 + q2) == Log(start, q1) + Log(start + |q1|, q2)
    decreases |q1|
  {
    if q1 == [] {
      assert q1 + q2 == q2;
    } else {
      assert (q1 + q2)[1..] == q1[1..] + q2;
      LogAppend(start + 1, q1[1..], q2);
    }
  }

  // ----- The reader -----

  /** How the reader turns one line into an event (the original uses ParseLine). */
  type LineParser = string -> Result<Event, ScanError>

  /** Each sequence number is above the one before it, the first above `last`. */
  predicate Ascending(last: u64, evs: seq<Event>) {
    && (evs != [] ==> last < evs[0].sequence)
    && (forall i :: 0 < i < |evs| ==> evs[i - 1].sequence < evs[i].sequence)
  }

  lemma AscendingCons(last: u64, e: Event, evs: seq<Event>)
    requires last < e.sequence && Ascending(e.sequence, evs)
    ensures Ascending(last, [e] + evs)
  {
    var all := [e] + evs;
    forall i | 0 < i < |all| ensures all[i - 1].sequence < all[i].sequence {
      assert all[i] == evs[i - 1];
      if i > 1 {
        assert all[i - 1] == evs[i - 2];
      }
    }
  }

  /** So replayed sequence numbers are all above `last` and strictly
      increasing: no event is replayed twice or out of order. */
  lemma {:induction false} AscendingSorted(last: u64, evs: seq<Event>)
    requires Ascending(last, evs)
    ensures forall i :: 0 <= i < |evs| ==> last < evs[i].sequence
    ensures forall i, j :: 0 <= i < j < |evs| ==> evs[i].sequence < evs[j].sequence
    decreases |evs|
  {
    if evs != [] {
      var tail := evs[1..];
      assert Ascending(evs[0].sequence, tail) by {
        forall i | 0 < i < |tail| ensures tail[i - 1].sequence < tail[i].sequence {
          assert tail[i - 1] == evs[i] && tail[i] == evs[i + 1];
        }
        if tail != [] {
          assert tail[0] == evs[1];
        }
      }
      AscendingSorted(evs[0].sequence, tail);
      assert last < evs[0].sequence;
      forall i | 0 < i < |evs| ensures evs[0].sequence < evs[i].sequence && last < evs[i].sequence {
        assert evs[i] == tail[i - 1];
      }
      forall i, j | 0 <= i < j < |evs| ensures evs[i].sequence < evs[j].sequence {
        if i > 0 {
          assert evs[i] == tail[i - 1] && evs[j] == tail[j - 1];
        }
      }
    }
  }

  /** The counter after replaying `evs` from `last`. */
  function LastSequence(last: u64, evs: seq<Event>): u64 {
    if evs == [] then last else evs[|evs| - 1].sequence
  }

  datatype Replay = Replay(events: seq<Event>, err: Option<LogError>, lastSequence: u64)

  /** What replaying `lines` from the counter value `last` promises: the
      events are the parses of the first lines, in order, with sequence
      numbers above `last` and strictly increasing; the counter ends at the
      last of them; there is no error exactly when every line was
      replayed, and otherwise the error names what is wrong with the first
      line that was not: it does not parse, or its sequence number is not
      above the counter. */
  predicate Replays(lines: seq<string>, last: u64, parse: LineParser, r: Replay) {
    && |r.events| <= |lines|
    && (forall i :: 0 <= i < |r.events| ==> parse(lines[i]) == Success(r.events[i]))
    && Ascending(last, r.events)
    && r.lastSequence == LastSequence(last, r.events)
    && (r.err.None? <==> |r.events| == |lines|)
    && (r.err.Some? ==> r.err == Some(InputParse) || r.err == Some(OutOfSequence))
    && (|r.events| < |lines| ==>
          var p := parse(lines[|r.events|]);
          && (r.err == Some(InputParse) <==> p.Failure?)
          && (r.err == Some(OutOfSequence) <==> p.Success? && p.value.sequence <= r.lastSequence))
  }

  /** A line that parses to an event above the counter, followed by a
      replay of the remaining lines, is a replay of all of them. */
  lemma ReplaysCons(lines: seq<string>, last: u64, parse: LineParser, e: Event, r: Replay)
    requires lines != [] && parse(lines[0]) == Success(e) && last < e.sequence
    requires Replays(lines[1..], e.sequence, parse, r)
    ensures Replays(lines, last, parse, Replay([e] + r.events, r.err, r.lastSequence))
  {
    var evs := [e] + r.events;
    forall i | 0 <= i < |evs| ensures parse(lines[i]) == Success(evs[i]) {
      if i > 0 {
        assert lines[i] == lines[1..][i - 1] && evs[i] == r.events[i - 1];
      }
    }
    AscendingCons(last, e, r.events);
    if |r.events| < |lines[1..]| {
      assert lines[1..][|r.events|] == lines[|evs|];
    }
  }

  /** The reader loop over the lines of the file: parse each line, reject
      one whose sequence is not above the last one, emit it otherwise.
      It stops at the first rejected line with one error. */
  function ReadLines(lines: seq<string>, last: u64, parse: LineParser): (r: Replay)
    ensures |r.events| <= |lines|
  {
    if lines == [] then Replay([], None, last)
    else
      match parse(lines[0])
      case Failure(_) => Replay([], Some(InputParse), last)
      case Success(e) =>
        if last >= e.sequence then Replay([], Some(OutOfSequence), last)
        else
          var r := ReadLines(lines[1..], e.sequence, parse);
          Replay([e] + r.events, r.err, r.lastSequence)
  }

  lemma {:induction false} ReadLinesReplays(lines: seq<string>, last: u64, parse: LineParser)
    ensures Replays(lines, last, parse, ReadLines(lines, last, parse))
    decreases |lines|
  {
    if lines != [] && parse(lines[0]).Success? && last < parse(lines[0]).value.sequence {
      var e := parse(lines[0]).value;
      ReadLinesReplays(lines[1..], e.sequence, parse);
      ReplaysCons(lines, last, parse, e, ReadLines(lines[1..], e.sequence, parse));
    }
  }

  /** ReadEvents on the logger's file; `readFailed` says whether the scanner
      ends with a read error after the lines it delivered. */
  function ReadEvents(l: FileLogger, parse: LineParser, readFailed: bool): (r: Replay)
    ensures r.err.None? <==> !readFailed && |r.events| == |Lines.SplitLines(l.file)|
    ensures r.err == Some(ReadFailure) <==> readFailed && |r.events| == |Lines.SplitLines(l.file)|
    ensures r.lastSequence == LastSequence(l.lastSequence, r.events)
    ensures var lines := Lines.SplitLines(l.file);
            && |r.events| <= |lines|
            && (forall i :: 0 <= i < |r.events| ==> parse(lines[i]) == Success(r.events[i]))
            && Ascending(l.lastSequence, r.events)
    ensures var lines := Lines.SplitLines(l.file);
            |r.events| < |lines| ==>
              var p := parse(lines[|r.events|]);
              && (r.err == Some(InputParse) <==> p.Failure?)
              && (r.err == Some(OutOfSequence) <==> p.Success? && p.value.sequence <= r.lastSequence)
    ensures r.err.Some? ==> r.err == Some(InputParse) || r.err == Some(OutOfSequence) || r.err == Some(ReadFailure)
  {
    var lines := Lines.SplitLines(l.file);
    ReadLinesReplays(lines, l.lastSequence, parse);
    var rp := ReadLines(lines, l.lastSequence, parse);
    if rp.err.None? && readFailed then rp.(err := Some(ReadFailure)) else rp
  }

  /** Lines that each parse to the next event above the last one are all replayed. */
  lemma {:induction false} ReadValidLines(start: u64, q: Queue, parse: LineParser)
    requires start + |q| < Uint64Bound
    requires forall i :: 0 <= i < |q| ==> parse(Record(start + 1 + i, q[i])) == Success(q[i].(sequence := start + 1 + i))
    ensures ReadLines(Records(start, q), start, parse) == Replay(Stamp(start, q), None, start + |q|)
    decreases |q|
  {
    if q != [] {
      var lines := Records(start, q);
      var e := q[0].(sequence := start + 1);
      var tail := q[1..];
      assert lines == [Record(start + 1, q[0])] + Records(start + 1, tail);
      assert parse(lines[0]) == Success(e);
      forall i | 0 <= i < |tail|
        ensures parse(Record(start + 1 + 1 + i, tail[i])) == Success(tail[i].(sequence := start + 1 + 1 + i))
      {
        assert tail[i] == q[i + 1];
      }
      ReadValidLines(start + 1, tail, parse);
      assert lines[1..] == Records(start + 1, tail);
      assert Stamp(start, q) == [e] + Stamp(start + 1, tail);
    }
  }

  /** Replay stops at the first bad line: when the lines before it parse
      to the queue numbered from `start + 1` and that line does not parse,
      or parses to a sequence number not above the one before it, exactly
      the earlier events are emitted, followed by the matching error. */
  lemma {:induction false} ReplayStopsAtBadLine(lines: seq<string>, start: u64, q: Queue, parse: LineParser)
    requires start + |q| < Uint64Bound && |q| < |lines|
    requires forall i :: 0 <= i < |q| ==> parse(lines[i]) == Success(q[i].(sequence := start + 1 + i))
    requires parse(lines[|q|]).Failure? || parse(lines[|q|]).value.sequence <= start + |q|
    ensures ReadLines(lines, start, parse)
            == Replay(Stamp(start, q), Some(if parse(lines[|q|]).Failure? then InputParse else OutOfSequence), start + |q|)
    decreases |q|
  {
    if q != [] {
      var e := q[0].(sequence := start + 1);
      var tail := q[1..];
      assert parse(lines[0]) == Success(e);
      forall i | 0 <= i < |tail|
        ensures parse(lines[1..][i]) == Success(tail[i].(sequence := start + 1 + 1 + i))
      {
        assert lines[1..][i] == lines[i + 1] && tail[i] == q[i + 1];
      }
      assert lines[1..][|tail|] == lines[|q|];
      ReplayStopsAtBadLine(lines[1..], start + 1, tail, parse);
      var r := ReadLines(lines[1..], start + 1, parse);
      assert ReadLines(lines, start, parse) == Replay([e] + r.events, r.err, r.lastSequence);
      assert Stamp(start, q) == [e] + Stamp(start + 1, tail);
    }
  }

  /** Records of events with word key and value parse back to the events,
      numbered from `start + 1`. */
  lemma TokenRecordsParse(start: u64, q: Queue, k: nat)
    requires start + |q| < Uint64Bound && k <= |q|
    requires forall i :: 0 <= i < k ==> TokenPayload(q[i])
    ensures forall i :: 0 <= i < k ==> ParseLine(Records(start, q)[i]) == Success(q[..k][i].(sequence := start + 1 + i))
  {
    forall i | 0 <= i < k ensures ParseLine(Records(start, q)[i]) == Success(q[..k][i].(sequence := start + 1 + i)) {
      ParseLineRoundTrip(start + 1 + i, q[i]);
    }
  }

  /** The reader as written stops at the first record whose value is
      empty (every Delete's): the records before it, all with word key
      and value, are replayed, and then the reader reports a parse error. */
  lemma ReplayStopsAtEmptyValue(start: u64, q: Queue, k: nat)
    requires start + |q| < Uint64Bound && k < |q|
    requires forall i :: 0 <= i < k ==> TokenPayload(q[i])
    requires NoSpace(q[k].key) && q[k].value == ""
    ensures ReadLines(Records(start, q), start, ParseLine) == Replay(Stamp(start, q[..k]), Some(InputParse), start + k)
  {
    var lines := Records(start, q);
    TokenRecordsParse(start, q, k);
    assert ParseLine(lines[k]).Failure? by {
      EmptyValueRejected(start + 1 + k, q[k]);
    }
    ReplayStopsAtBadLine(lines, start, q[..k], ParseLine);
  }

  /** Without a write error or wrap-around, the writer appends the queue as
      lines in enqueue order, the i-th carrying sequence number
      `lastSequence + 1 + i`, and the counter ends at the last of them. */
  lemma RunWritesRecords(l: FileLogger, q: Queue)
    requires l.lastSequence + |q| < Uint64Bound
    ensures Run(l, q, None).logger == FileLogger(l.file + Lines.Join(Records(l.lastSequence, q)), l.lastSequence + |q|)
    ensures Run(l, q, None).err == None
  {
    assert q[..Delivered(q, None)] == q;
    LogIsJoin(l.lastSequence, q);
    AdvanceNoWrap(l.lastSequence, |q|);
  }

  /** On a write error the writer reports it once, has written exactly the
      events before the failing one, and has still used up a sequence
      number for the failing one. */
  lemma RunStopsAtWriteError(l: FileLogger, q: Queue, k: nat)
    requires k < |q| && l.lastSequence + |q| < Uint64Bound
    ensures Run(l, q, Some(k)) == Written(FileLogger(l.file + Lines.Join(Records(l.lastSequence, q[..k])), l.lastSequence + k + 1), Some(WriteFailure))
  {
    LogIsJoin(l.lastSequence, q[..k]);
    AdvanceNoWrap(l.lastSequence, k + 1);
  }

  /** Without wrap-around, the line scanner cuts what the writer appends
      back into exactly the records it printed. */
  lemma LogLines(start: u64, q: Queue)
    requires start + |q| < Uint64Bound
    requires forall i :: 0 <= i < |q| ==> Storable(q[i])
    ensures Lines.SplitLines(Log(start, q)) == Records(start, q)
  {
    LogIsJoin(start, q);
    var ls := Records(start, q);
    forall i | 0 <= i < |ls| ensures Lines.IsLine(ls[i]) {
      RecordIsLine(start + 1 + i, q[i]);
    }
    Lines.SplitJoin(ls);
  }

  /** What the writer appends from `start`, read back from `start`, is the
      queue again, numbered `start + 1, start + 2, ...`, with no error;
      the counter ends at the last number written. */
  lemma ReplayWritten(start: u64, q: Queue, parse: LineParser)
    requires start + |q| < Uint64Bound
    requires forall i :: 0 <= i < |q| ==> Storable(q[i])
    requires forall i :: 0 <= i < |q| ==> parse(Record(start + 1 + i, q[i])) == Success(q[i].(sequence := start + 1 + i))
    ensures ReadLines(Lines.SplitLines(Log(start, q)), start, parse) == Replay(Stamp(start, q), None, start + |q|)
  {
    LogLines(start, q);
    ReadValidLines(start, q, parse);
  }

  /** Round trip through the file with the reader as written: it holds for
      events whose key and value are non-empty and free of white space. */
  lemma ReplayWrittenTokens(start: u64, q: Queue)
    requires start + |q| < Uint64Bound
    requires forall i :: 0 <= i < |q| ==> TokenPayload(q[i])
    ensures ReadLines(Lines.SplitLines(Log(start, q)), start, ParseLine) == Replay(Stamp(start, q), None, start + |q|)
  {
    forall i | 0 <= i < |q| ensures Storable(q[i]) && ParseLine(Record(start + 1 + i, q[i])) == Success(q[i].(sequence := start + 1 + i)) {
      TokenPayloadStorable(q[i]);
      ParseLineRoundTrip(start + 1 + i, q[i]);
    }
    ReplayWritten(start, q, ParseLine);
  }

  /** Round trip with the corrected reader: every storable event comes back,
      Deletes and empty values included. */
  lemma ReplayWrittenFields(start: u64, q: Queue)
    requires start + |q| < Uint64Bound
    requires forall i :: 0 <= i < |q| ==> Storable(q[i])
    ensures ReadLines(Lines.SplitLines(Log(start, q)), start, ParseFields) == Replay(Stamp(start, q), None, start + |q|)
  {
    forall i | 0 <= i < |q| ensures ParseFields(Record(start + 1 + i, q[i])) == Success(q[i].(sequence := start + 1 + i)) {
      ParseFieldsRoundTrip(start + 1 + i, q[i]);
    }
    ReplayWritten(start, q, ParseFields);
  }
}

=== FILE: wrappers.dfy ===
/** Optional values and results with failure propagation (`:-`).

    Go reports failure with a second `error` result; the model uses `Option`
    for "nil or an error" and `Result` for "a value or an error". */
module Wrappers {

  datatype Option<+T> = None | Some(value: T)

  datatype Result<+T, +E> = Success(value: T) | Failure(error: E) {

    predicate IsFailure() {
      Failure?
    }

    function PropagateFailure<U>(): Result<U, E>
      requires Failure?
    {
      Failure(error)
    }

    function Extract(): T
      requires Success?
    {
      value
    }
  }
}
